=== FILE: README.md ===
# mcp-rag core in Dafny

A model of the retrieval core of `mcp-rag`, an MCP server that answers
questions over a directory of documents. It covers four layers:

- **Chunker.** `DocumentProcessor.chunkText` cuts a document's token
  sequence into overlapping windows. Each window becomes a chunk with a
  deterministic id.
- **Store.** `VectorStore` holds chunks in a primary vector collection
  (ChromaDB). It falls back to an in-memory `Map` when the collection
  was never reached, or when a single primary call throws. Its fallback
  search is a case-insensitive substring filter, ranked by match count.
- **Service.** `RAGService` ingests a directory, replacing the documents
  it finds, and summarises the collection.
- **MCP handlers.** The tool handler (`ingest_docs`, `search`,
  `get_chunk`, `refresh_index`) and the resource reader
  (`rag://collection/summary`, `rag://doc/<source>#<id>`).

How the outside world is modelled:

- **External calls are answers passed in.** Each call to ChromaDB or the
  embedding server is a parameter of type `Outcome<T>`: `Ok(value)` for
  what the call answered, `Fail` for a throw. The tokenizer is the token
  sequence plus a `decode` function. The document processor that reads
  files is a function `process` from a path to a `Result` holding the
  chunks or an error. Path resolution is a function `resolve`. The
  store's state is its mode (`Primary` or `Fallback`) and its in-memory map. The map is a key
  order plus a map, because a JavaScript `Map` iterates in first-insertion
  order.
- **The service state is the store.** `RAGService.search`, `getChunk` and
  `refreshIndex` (`src/services/ragService.ts:62-72`) only forward to the
  store. `Tools.HandleToolCall` therefore calls `VectorStore.Search`,
  `GetChunk` and `RefreshIndex` directly.

Modules, one per file, in dependency order:

| module | file | models |
|---|---|---|
| `Basics` | `basics.dfy` | `Option`, `Outcome`, `Result`; `Set` iteration order (`Distinct`); number formatting |
| `Text` | `text.dfy` | `trim`, `toLowerCase`, `includes`, global-match counting, `split` |
| `Chunks` | `chunks.dfy` | `DocumentChunk` and its metadata |
| `Chunker` | `chunker.dfy` | `chunkText` and the id sanitiser |
| `Memory` | `memory.dfy` | the in-memory `Map` and the store's memory operations |
| `Ranking` | `ranking.dfy` | `textSearch` |
| `VectorStore` | `vector_store.dfy` | the dual-mode store |
| `RagService` | `rag_service.dfy` | ingestion and the collection summary |
| `Tools` | `tools.dfy` | `handleToolCall` |
| `Resources` | `resources.dfy` | `handleResourceRead`, `isResourceUri` |

Three behaviours of the code that a reader might not expect. The model
keeps the first and the third as written; for the second it counts
literal matches instead:

- **Cursor step.** After an emitted window the chunker moves its cursor
  to `max(start + 1, end - overlap)`
  (`src/services/documentProcessor.ts:123`). It does so even after a
  window has reached the last token, so the walk keeps emitting shorter
  tail windows. The same function stamps every chunk with
  `totalChunks = ceil(N / chunkSize)` (line 117), which shows that the
  walk was meant to end at the last token. See Findings.
- **Match counting.** The fallback ranking counts the matches of a
  regular expression built from the query
  (`src/services/vectorStore.ts:149`). The model counts literal,
  non-overlapping matches. This equals the regular expression's count
  for queries without metacharacters.
- **Ids across documents.** A chunk id is the sanitised source, `_chunk_`
  and the index (`src/services/documentProcessor.ts:109`). Two sources
  that sanitise alike, such as `a-b.md` and `a_b.md`, therefore produce
  the same ids, and the later document's chunks replace the earlier
  one's in memory. `Chunker.ChunkIdsDistinct` is accordingly stated
  within one source only.

## Model

| member | source | states |
|---|---|---|
| Basics.Distinct | src/services/ragService.ts:49-52 | The elements of a `Set` built from a list, in its iteration order: no duplicates, exactly the list's members, no longer than the list, and an element listed before another was first found before it in the list |
| Basics.DistinctSize | src/services/ragService.ts:49-50 | The number of distinct elements equals the size of the set of the list's members, which is what `Set.size` reports |
| Basics.NatToString | src/services/documentProcessor.ts:109 | A number in a template literal: decimal digits whose value is the number, with no leading zero except for 0 itself |
| Basics.NatToStringInjective | src/services/documentProcessor.ts:109 | Different chunk indices print differently, which is what makes the ids of one document distinct |
| Text.LeadingWhitespace | src/services/documentProcessor.ts:104 | The leading run that `trim` removes: every character in it is white space and the next one is not |
| Text.TrailingWhitespace | src/services/documentProcessor.ts:104 | The trailing run that `trim` removes: every character in it is white space and the one before it is not |
| Text.Trim | src/services/documentProcessor.ts:104 | `trim` gives an empty result exactly when the text is all white space; otherwise the result is the text with exactly its leading and trailing white space removed, so it begins and ends with a non-white-space character |
| Text.TrimIdempotent | src/services/documentProcessor.ts:113 | A stored chunk's content is already trimmed: trimming it again changes nothing |
| Text.Lower | src/services/vectorStore.ts:131-135 | `toLowerCase` keeps the length and lower-cases each character on its own |
| Text.Contains | src/services/vectorStore.ts:136 | `includes` holds exactly when the pattern occurs at some position of the text |
| Text.Occurrences | src/services/vectorStore.ts:149-150 | The match count of the query: `N + 1` for the empty query, otherwise non-overlapping matches that fit side by side in the text |
| Text.MatchPositions | src/services/vectorStore.ts:149-150 | For a non-empty query, where the left-to-right search finds its matches: occurrences no two of which overlap, exactly as many as the match count |
| Text.OccurrencesIsMaximal | src/services/vectorStore.ts:149-150 | No set of non-overlapping occurrences of a non-empty query is larger than the match count, so the count is the largest number of non-overlapping occurrences |
| Text.OccurrencesPositiveIffContains | src/services/vectorStore.ts:136-150 | For a non-empty query, the match count used for ranking is positive exactly when the substring filter keeps the chunk |
| Text.Split | src/mcp/resources.ts:22 | `split('#')` gives one more part than there are separators, and no part contains a separator |
| Text.SplitJoin | src/mcp/resources.ts:22 | Joining the parts of `split` with the separator gives the text back |
| Text.SplitAroundSeparator | src/mcp/resources.ts:22-24 | Two separator-free texts around one separator split into exactly those two parts |
| Chunks.WithDistance | src/services/vectorStore.ts:137-143 | A search result keeps the chunk's id, content and metadata and only sets `distance` |
| Chunks.SourceListMembers | src/services/ragService.ts:49 | The per-chunk source list has exactly the sources of the batch as members |
| Chunker.Sanitize | src/services/documentProcessor.ts:109 | The source with every character that is not an ASCII letter or digit replaced by `_`: same length, letters and digits kept, nothing else survives |
| Chunker.ChunkId | src/services/documentProcessor.ts:109 | The id is the sanitised source, then `_chunk_`, then decimal digits spelling the index, with a leading `0` only for index 0, which is the single digit `0` |
| Chunker.ChunkIdsDistinct | src/services/documentProcessor.ts:109 | Two chunks of the same source with different indices get different ids |
| Chunker.ChunkIdHasNoHash | src/services/documentProcessor.ts:109 | A chunk id never contains `#`, so it can sit after the `#` of a document URI |
| Chunker.CeilDiv | src/services/documentProcessor.ts:117 | `Math.ceil(N / chunkSize)`: the least multiple count covering N |
| Chunker.WindowEnd | src/services/documentProcessor.ts:100 | A window ends `chunkSize` tokens on or at the end of the tokens, whichever comes first |
| Chunker.Windows | src/services/documentProcessor.ts:99-107 | The emitted windows lie inside the tokens, span `min(start + chunkSize, N)`, decode to non-blank text, and each starts at or after `max(start + 1, end - overlap)` of every earlier one |
| Chunker.WindowsStep | src/services/documentProcessor.ts:99-125 | The walk emits the window at the cursor exactly when its trimmed text is not empty, then goes on from where the cursor moves |
| Chunker.WindowsCover | src/services/documentProcessor.ts:99-125 | With a non-negative overlap no token is skipped: each lies in an emitted window or in a dropped blank one |
| Chunker.WindowsLength | src/services/documentProcessor.ts:99-125 | The walk emits at most as many windows as there are tokens left |
| Chunker.NextStart | src/services/documentProcessor.ts:105-123 | After a dropped window the cursor goes to its end; after an emitted one to exactly `max(start + 1, end - overlap)`, unless the corrected walk stops at the last token |
| Chunker.MakeChunk | src/services/documentProcessor.ts:109-121 | The chunk of the i-th emitted window: id for index i, the trimmed decode of the window as content, source, index i, total `ceil(N / chunkSize)`, the document's title and page, no distance |
| Chunker.ChunkText | src/services/documentProcessor.ts:92-128 | One chunk per emitted window of the walk, in order, and the content of the i-th is the trimmed decode of its window; none for an empty document and at most N; every content non-blank and trimmed; the i-th chunk has id `sanitize(source)_chunk_i`, index i and total `ceil(N / chunkSize)`; ids distinct; under the corrected cursor also at most `ceil(N / max(1, chunkSize - overlap))` chunks |
| Chunker.AsWrittenTailExceedsBound | src/services/documentProcessor.ts:123 | Five tokens, window 4, overlap 1: the program emits `[0,4)`, `[3,5)`, `[4,5)`, three chunks, while both `ceil(5 / (4 - 1))` and the `totalChunks` it records, `ceil(5 / 4)`, are two |
| Chunker.StopAtEndBound | src/services/documentProcessor.ts:99-125 | With the cursor stopping once a window reaches the last token, at most `ceil(N / max(1, chunkSize - overlap))` windows |
| Memory.Get | src/services/vectorStore.ts:175-178 | `Map.get`: a chunk found under an id carries that id |
| Memory.Size | src/services/vectorStore.ts:219 | `Map.size` is the number of entries |
| Memory.Values | src/services/vectorStore.ts:209-220 | `Map.values()` in key order: one value per key, and a chunk is among them exactly when some id maps to it |
| Memory.ValueIsFiledUnderItsId | src/services/vectorStore.ts:84 | Every chunk in memory is found under its own id |
| Memory.Put | src/services/vectorStore.ts:84 | `set(chunk.id, chunk)`: the id maps to the chunk, no other id changes, a present key keeps its place and a new one is appended |
| Memory.LastWithId | src/services/vectorStore.ts:83-85 | The chunk a batch leaves under an id: none exactly when no chunk has the id, otherwise the last one that has it |
| Memory.LastWithIdOfDistinct | src/services/vectorStore.ts:83-85 | In a batch with distinct ids, each chunk is what the batch leaves under its id |
| Memory.PutAll | src/services/vectorStore.ts:82-86 | `addToMemory`: each id ends with the batch's last chunk carrying it or else its old entry; the keys are the distinct elements of the old keys followed by the batch's ids, so old keys keep their order in front and new ids follow in the order they first appear in the batch |
| Memory.KeepOtherSources | src/services/vectorStore.ts:246-256 | The key order after the deletes: exactly the keys whose entry has another source, in their original order, without duplicates |
| Memory.RemoveSource | src/services/vectorStore.ts:245-257 | `deleteFromMemoryBySource`: an entry goes exactly when its source matches, and the others keep their order |
| Memory.RemoveSourceIdempotent | src/services/vectorStore.ts:245-257 | Deleting a source twice is the same as deleting it once |
| Memory.RemoveSources | src/services/ragService.ts:52-54 | Deleting each source of a list in turn removes exactly the entries whose source is in the list |
| Memory.Clear | src/services/vectorStore.ts:264-270 | `clear` leaves no entry and size 0 |
| Ranking.Matches | src/services/vectorStore.ts:134-145 | The filtering loop: the matching input chunks marked with distance 0, in input order, and every matching chunk is among the results |
| Ranking.InsertSorted | src/services/vectorStore.ts:148-152 | Inserting into a list sorted by descending key keeps it sorted |
| Ranking.SortByKey | src/services/vectorStore.ts:148-152 | The sort returns a permutation of its input, sorted by descending match count |
| Ranking.SortByKeyStable | src/services/vectorStore.ts:148-152 | `Array.prototype.sort` is stable: elements with equal counts keep their relative order |
| Ranking.SortByScore | src/services/vectorStore.ts:148-152 | The results, permuted, most matches of the query first |
| Ranking.JsSlice | src/services/vectorStore.ts:154 | `slice(0, k)` is a prefix of length `min(k, n)`, or `max(0, n + k)` for a negative `k` |
| Ranking.TextSearch | src/services/vectorStore.ts:130-155 | Every result is a memory chunk containing the lower-cased query, with distance 0; most matches first; `min(k, matches)` results, or all but the last `-k` for a negative `k`; no left-out match has more matches than a kept one; when `k` covers the memory, every matching chunk is returned |
| Ranking.TextSearchTiesKeepMemoryOrder | src/services/vectorStore.ts:134-154 | For every `k`, the results with any one match count are the first matching memory chunks with that count, in memory insertion order; all of them when `k` covers the memory |
| VectorStore.Initialize | src/services/vectorStore.ts:33-50 | The store is primary exactly when both the heartbeat and opening the collection answer; memory untouched |
| VectorStore.AddDocuments | src/services/vectorStore.ts:52-80 | An empty batch, or a primary store whose embedding and add succeed, leaves the memory alone; otherwise the batch goes to memory one `Map.set` at a time, so present ids keep their place and new ids are appended; the mode never changes |
| VectorStore.HitChunk | src/services/vectorStore.ts:108-117 | A primary hit keeps id, document and all its metadata, and a missing or zero distance reads as 0 |
| VectorStore.Search | src/services/vectorStore.ts:88-128 | A primary answer gives its hits in order; otherwise, including when the primary call throws, exactly the memory text search with the same query and `k` |
| VectorStore.GetChunk | src/services/vectorStore.ts:157-180 | A primary answer, found or not, is the result without consulting memory; otherwise the memory entry |
| VectorStore.NonEmpty | src/services/vectorStore.ts:209-215 | The falsy-source filter: exactly the non-empty sources |
| VectorStore.StatsOf | src/services/vectorStore.ts:186-198 | One count per record; the sources are distinct and are exactly the non-empty record sources |
| VectorStore.MemoryStats | src/services/vectorStore.ts:209-222 | The count is the number of entries; the sources are distinct and are exactly the non-empty sources of memory chunks |
| VectorStore.CollectionStats | src/services/vectorStore.ts:182-207 | The primary records' stats when the primary answers, else the memory stats |
| VectorStore.DeleteBySource | src/services/vectorStore.ts:224-243 | A primary delete that answers leaves the memory alone; otherwise the memory loses that source's entries; the mode never changes |
| VectorStore.RefreshIndex | src/services/vectorStore.ts:259-272 | A primary delete-all that answers leaves the memory alone; otherwise the memory is cleared |
| VectorStore.AddThenGet | src/services/vectorStore.ts:74-86 | In fallback mode, a chunk just added, with no later chunk of the batch sharing its id, is what `getChunk` returns for its id |
| VectorStore.DeleteThenStats | src/services/vectorStore.ts:238-257 | After a memory delete of a source, the memory stats no longer list it |
| VectorStore.RefreshThenStats | src/services/vectorStore.ts:259-272 | After a memory refresh the memory stats are zero chunks and no sources |
| VectorStore.PrimaryHidesMemory | src/services/vectorStore.ts:157-180 | Chunks that went to memory after a failed primary add are not found when the primary lookup answers "not found": the memory diverges from the primary |
| RagService.ResolvePath | src/services/ragService.ts:25-28 | A missing or empty argument means the configured path; a path starting with `/` is used as it is, any other is handed with the working directory to the `resolve` parameter |
| RagService.ResolvePathIdempotent | src/services/ragService.ts:25-28 | If `resolve` always yields a path starting with `/`, so does the result, and ingesting it again as the argument resolves to the same path |
| RagService.DeleteSources | src/services/ragService.ts:52-54 | Deleting each source in turn: an entry leaves memory exactly when its source is listed and that source's delete fell back to memory |
| RagService.ReplaceDocuments | src/services/ragService.ts:49-56 | In fallback mode, ingesting a batch maps each of its ids to the batch's last chunk with it, and drops every other chunk of a document the batch carries; in any mode, each id's memory lookup afterwards is `AfterReplace`: a deletion that fell to memory removes the old chunk, and an add that fell to memory puts the batch's last chunk with that id over what is left |
| RagService.Ingest | src/services/ragService.ts:24-60 | A processor error is passed on; no chunks means no store call and counts 0, 0; otherwise the documents are replaced and the counts are the number of distinct sources and of chunks |
| RagService.DistinctSourceCount | src/services/ragService.ts:49-59 | `processed` is the number of distinct sources of the batch |
| RagService.IngestThenGetChunk | src/services/ragService.ts:52-56 | After a fallback ingestion of a batch with distinct ids, every chunk of the batch is found by its id |
| RagService.CollectionSummary | src/services/ragService.ts:74-89 | The chunk count and the sources are those of the collection stats, and `totalSources` is the number of those sources; sources distinct and non-empty; the count is the primary record count or the memory size |
| RagService.IngestThenSummary | src/services/ragService.ts:49-89 | After a fallback ingestion of a batch with distinct ids, the summary lists every non-empty source of the batch |
| Tools.Locator | src/mcp/tools.ts:78-100 | A reported URI is a document URI: it starts with `rag://doc/` |
| Tools.Locate | src/mcp/tools.ts:86-102 | A reported chunk keeps id, content and metadata and carries its URI |
| Tools.LocateAll | src/mcp/tools.ts:78-83 | Search results are reported one for one, in order |
| Tools.EffectiveK | src/mcp/tools.ts:75 | `args.k \|\| 5`: a missing or zero `k` is 5, any other value is kept |
| Tools.IngestMessage | src/mcp/tools.ts:69 | The ingestion message opens with `Successfully processed `, then the decimal number of documents, and closes with ` chunks`; read back as `Successfully processed <n> documents and created <m> chunks`, where `<n>` and `<m>` are numerals without a leading zero, it gives both counts |
| Tools.HandleToolCall | src/mcp/tools.ts:63-114 | An unknown name is the error `Unknown tool: <name>`; an ingestion error is passed on, otherwise the reply is the ingestion message for the reported counts; search reports the store's results located, in order; `get_chunk` reports the chunk, or `Chunk not found` with success false; refresh replies `Index refreshed successfully`; only ingestion and refresh change the store |
| Tools.IngestMessageInjective | src/mcp/tools.ts:69 | The ingestion message determines both counts |
| Resources.IsResourceUri | src/mcp/resources.ts:40-42 | A URI is a resource URI exactly when it starts with `rag://`; the summary URI and every document URI are ones; a URI that is not one names neither the summary nor a chunk |
| Resources.RequestedChunkId | src/mcp/resources.ts:21-25 | A document URI names an id exactly when it starts with `rag://doc/` and holds exactly one `#`; the id holds no `#` |
| Resources.HandleResourceRead | src/mcp/resources.ts:15-38 | The summary URI gives the summary; a document URI whose id the store finds gives that chunk, echoing the URI; anything else is `Resource not found: <uri>` |
| Resources.LocatorRoundTrip | src/mcp/resources.ts:21-25 | The URI reported for a chunk whose source and id have no `#` asks for that chunk's id; `Chunker.ChunkIdHasNoHash` discharges the id condition for every id the chunker makes |
| Resources.HashInSourceBreaksLocator | src/mcp/resources.ts:22-23 | A `#` in the source makes the reported URI name no chunk |
| Resources.DocumentUriIsNotSummary | src/mcp/resources.ts:16-21 | No document URI is the summary URI |
| Resources.ReadDocument | src/mcp/resources.ts:21-32 | A document URI whose id the store finds reads that chunk |
| Resources.ReadBackMemoryChunk | src/mcp/resources.ts:21-32 | In fallback mode, a memory chunk is read back through the URI search reports for it |
| Resources.SearchResultsAreReadable | src/mcp/resources.ts:21-32 | In fallback mode, every search result whose source and id hold no `#` can be read back, with the same id and content, through the URI the search tool reported |

## Left out

- **ChromaDB, the embedding server and the tokenizer.** These are
  external. Their answers are parameters: `Outcome` values, the token
  sequence, `decode`, the processor result.
- **Several primary calls fold into one answer.** `deleteBySource` looks
  up ids and then deletes them; `addDocuments` embeds and then adds.
  Either step throwing gives the same fallback, so each pair is one
  `Outcome`.
- **Reading files** (`processDirectory`, `getFileStats`). The processor is
  a parameter. The summary's file statistics are not modelled.
- **Logging, JSON serialisation, the MCP transport, the CLI scripts and
  configuration loading.**
- **Asynchrony.** Calls are modelled as sequential, as the program runs
  them one at a time.
- Text.Occurrences: counts literal matches of the query, not matches of the regular expression built from it.
- Ranking.TextSearch: counts literal matches. A query with regular-expression metacharacters counts differently in the program, and an invalid one throws there.
- Text.Lower: lower-cases ASCII letters only, not the whole of Unicode.
- Chunker.Sanitize: works on characters, not UTF-16 code units, so a character outside the Basic Multilingual Plane becomes one `_` rather than two.
- **Non-integer and non-positive numbers.** `Chunker.ChunkText` requires
  an integer `chunkSize` of at least 1, because the program never ends
  for a `chunkSize` of 0 or less. A non-integer `k` is not modelled.
- **Malformed tool arguments.** A missing `query` or `id`, or arguments
  of the wrong JSON type, are not modelled.
- **Unaligned primary records.** The primary stats assume one metadata
  record per id, with `""` standing for a missing source. A result
  without `metadatas` is not modelled.
- **Forwarding members.** `RAGService.initialize`, `search`, `getChunk`
  and `refreshIndex` only forward to the store. They have no member of
  their own; `VectorStore.Initialize` and the others stand for them.
- Chunker.ChunkText: the token count and `totalChunks` are unbounded integers; the program's `chunkSize` and `chunkOverlap` are JavaScript numbers, and only integer values are modelled.

## Findings

| source | as written | input that shows it | evidently intended | confidence | as-written member | corrected member |
|---|---|---|---|---|---|---|
| src/services/documentProcessor.ts:123 | after an emitted window the cursor moves to `max(start + 1, end - overlap)` even when the window already reached the last token, so the walk keeps emitting shorter tail windows inside the previous one | 5 tokens, chunkSize 4, overlap 1, every window non-blank: windows `[0,4)`, `[3,5)`, `[4,5)`, three chunks, each stamped `totalChunks` 2 | the walk ends once a window reaches the last token, as the `totalChunks = ceil(N / chunkSize)` stamped at line 117 presumes, giving at most `ceil(N / max(1, chunkSize - overlap))` chunks | high (not executed) | Chunker.AsWrittenTailExceedsBound | Chunker.StopAtEndBound |

`Chunker.ChunkText` takes the cursor policy as a parameter:

- `AsWritten` is the program's walk.
- `StopAtEnd` is the corrected walk. Under it, `ChunkText`'s contract
  also states the bound.

=== FILE: basics.dfy ===
/** Small vocabulary shared by every other module: optional values, the
    outcome of a call into an external service, results that may carry an
    error message, and a few facts about sequences. */
module Basics {

  /** A value that may be absent (JavaScript `undefined` / `null`). */
  datatype Option<+T> = None | Some(value: T) {
    function GetOr(default: T): T {
      match this
      case Some(v) => v
      case None => default
    }

    /** This value if present, otherwise `other`. */
    function Or(other: Option<T>): Option<T> {
      if this.Some? then this else other
    }
  }

  /** What an external service (the vector database, the embedding server,
      the file system) answered: a value, or a thrown error. Which of the two
      happens is not under the program's control, so every operation that
      talks to such a service takes the answer as a parameter. */
  datatype Outcome<+T> = Ok(value: T) | Fail

  /** A caller-visible result: a value or a thrown error with its message. */
  datatype Result<+T> = Success(value: T) | Failure(error: string)

  function Min(a: int, b: int): int { if a <= b then a else b }

  function Max(a: int, b: int): int { if a >= b then a else b }

  predicate NoDuplicates<T(==)>(s: seq<T>) {
    forall i, j :: 0 <= i < j < |s| ==> s[i] != s[j]
  }

  /** `a` is `b` with some elements left out and the rest mapped by `f`,
      in their original order. */
  predicate SubsequenceBy<A, B(==)>(a: seq<B>, b: seq<A>, f: A -> B)
    decreases |b|
  {
    a == [] || (b != [] && ((a[0] == f(b[0]) && SubsequenceBy(a[1..], b[1..], f)) || SubsequenceBy(a, b[1..], f)))
  }

  /** The distinct elements of `s` in order of first occurrence, which is
      the iteration order of a JavaScript `Set` built from `s`. */
  function Distinct<T(==,!new)>(s: seq<T>): (r: seq<T>)
    ensures NoDuplicates(r)
    ensures forall x :: x in r <==> x in s
    ensures |r| <= |s|
    ensures InFirstOccurrenceOrder(r, s)
  {
    if s == [] then []
    else
      var d := Distinct(s[..|s| - 1]);
      DistinctOrderStep(s, d);
      if s[|s| - 1] in d then d else d + [s[|s| - 1]]
  }

  /** The elements of `r` occur in `s`, and earlier in `r` means first
      found earlier in `s`. */
  predicate InFirstOccurrenceOrder<T(==)>(r: seq<T>, s: seq<T>) {
    forall i, j :: 0 <= i < j < |r| ==> r[i] in s && r[j] in s && FirstIndex(s, r[i]) < FirstIndex(s, r[j])
  }

  /** The position of the first `x` in `s`. */
  function FirstIndex<T(==)>(s: seq<T>, x: T): (i: nat)
    requires x in s
    ensures i < |s| && s[i] == x
    ensures forall j :: 0 <= j < i ==> s[j] != x
  {
    if s[0] == x then 0 else 1 + FirstIndex(s[1..], x)
  }

  /** An element of the text before the last position is first found where
      it is first found in that shorter text. */
  lemma FirstIndexInPrefix<T>(s: seq<T>, x: T)
    requires s != [] && x in s[..|s| - 1]
    ensures FirstIndex(s, x) == FirstIndex(s[..|s| - 1], x)
  {
    var t := s[..|s| - 1];
    var a, b := FirstIndex(s, x), FirstIndex(t, x);
    assert s[b] == t[b];
    assert a <= b < |t|;
    assert t[a] == s[a];
  }

  /** Appending the last element of `s` to the distinct elements of the
      rest, when it is new, keeps first-occurrence order. */
  lemma DistinctOrderStep<T>(s: seq<T>, d: seq<T>)
    requires s != []
    requires forall x :: x in d <==> x in s[..|s| - 1]
    requires InFirstOccurrenceOrder(d, s[..|s| - 1])
    ensures InFirstOccurrenceOrder(if s[|s| - 1] in d then d else d + [s[|s| - 1]], s)
  {
    var t, last := s[..|s| - 1], s[|s| - 1];
    assert s == t + [last];
    forall x | x in d ensures x in s && FirstIndex(s, x) == FirstIndex(t, x) {
      FirstIndexInPrefix(s, x);
    }
    if last !in d {
      assert FirstIndex(s, last) == |s| - 1;
    }
  }

  /** A duplicate-free sequence is its own list of distinct elements. */
  lemma {:induction false} DistinctOfNoDuplicates<T(!new)>(s: seq<T>)
    requires NoDuplicates(s)
    ensures Distinct(s) == s
  {
    if s != [] {
      var t := s[..|s| - 1];
      assert forall i :: 0 <= i < |t| ==> t[i] == s[i];
      DistinctOfNoDuplicates(t);
      assert s[|s| - 1] !in t;
      assert t + [s[|s| - 1]] == s;
    }
  }

  /** Removing the duplicates of a front part first changes nothing. */
  lemma {:induction false} DistinctOfDistinctPrefix<T(!new)>(a: seq<T>, b: seq<T>)
    ensures Distinct(Distinct(a) + b) == Distinct(a + b)
    decreases |b|
  {
    if b == [] {
      assert Distinct(a) + b == Distinct(a) && a + b == a;
      DistinctOfNoDuplicates(Distinct(a));
    } else {
      var c, last := b[..|b| - 1], b[|b| - 1];
      DistinctOfDistinctPrefix(a, c);
      SplitLast(Distinct(a), b);
      SplitLast(a, b);
      DistinctSnoc(Distinct(a) + c, last);
      DistinctSnoc(a + c, last);
    }
  }

  lemma SplitLast<T>(a: seq<T>, b: seq<T>)
    requires b != []
    ensures a + b == (a + b[..|b| - 1]) + [b[|b| - 1]]
  {
    assert b == b[..|b| - 1] + [b[|b| - 1]];
  }

  /** The distinct elements of a duplicate-free `a` followed by more
      start with `a` itself. */
  lemma {:induction false} DistinctKeepsPrefix<T(!new)>(a: seq<T>, b: seq<T>)
    requires NoDuplicates(a)
    ensures |a| <= |Distinct(a + b)| && Distinct(a + b)[..|a|] == a
    decreases |b|
  {
    if b == [] {
      assert a + b == a;
      DistinctOfNoDuplicates(a);
    } else {
      var c, last := b[..|b| - 1], b[|b| - 1];
      DistinctKeepsPrefix(a, c);
      SplitLast(a, b);
      DistinctSnoc(a + c, last);
      var d := Distinct(a + c);
      if last !in d {
        assert (d + [last])[..|a|] == d[..|a|];
      }
    }
  }

  /** One more element at the end is kept exactly when it is new. */
  lemma DistinctSnoc<T(!new)>(s: seq<T>, x: T)
    ensures Distinct(s + [x]) == if x in Distinct(s) then Distinct(s) else Distinct(s) + [x]
  {
    assert (s + [x])[..|s|] == s;
  }

  /** A duplicate-free sequence has as many elements as its set of elements. */
  lemma {:induction false} NoDuplicatesCardinality<T(!new)>(s: seq<T>)
    requires NoDuplicates(s)
    ensures |set x | x in s| == |s|
  {
    if s != [] {
      var t := s[..|s| - 1];
      NoDuplicatesCardinality(t);
      assert (set x | x in s) == (set x | x in t) + {s[|s| - 1]};
      assert s[|s| - 1] !in t by {
        forall i | 0 <= i < |t| ensures t[i] != s[|s| - 1] {
          assert t[i] == s[i];
        }
      }
    }
  }

  /** `Distinct(s)` has exactly as many elements as the set of elements of
      `s`, which is the `size` of the JavaScript `Set`. */
  lemma DistinctSize<T(!new)>(s: seq<T>)
    ensures |Distinct(s)| == |set x | x in s|
  {
    var d := Distinct(s);
    NoDuplicatesCardinality(d);
    assert (set x | x in d) == (set x | x in s);
  }

  /** Decimal notation of a natural number, as JavaScript's template
      literals print an integer: digits only, spelling `n`, with no leading
      zero except for `0` itself. */
  function NatToString(n: nat): (r: string)
    ensures |r| >= 1
    ensures forall i :: 0 <= i < |r| ==> '0' <= r[i] <= '9'
    ensures DecimalValue(r) == n
    ensures r[0] == '0' <==> n == 0
    ensures r[0] == '0' ==> |r| == 1
    ensures n >= 10 ==> |r| >= 2
  {
    if n < 10 then
      assert [Digit(n)][..0] == [];
      [Digit(n)]
    else
      var r := NatToString(n / 10) + [Digit(n % 10)];
      assert r[..|r| - 1] == NatToString(n / 10);
      r
  }

  /** The number a string of decimal digits spells, read left to right. */
  function DecimalValue(s: string): int {
    if s == [] then 0
    else 10 * DecimalValue(s[..|s| - 1]) + (s[|s| - 1] as int - '0' as int)
  }

  function Digit(d: nat): (c: char)
    requires d < 10
    ensures '0' <= c <= '9'
    ensures c as int - '0' as int == d
  {
    ('0' as int + d) as char
  }

  /** Different numbers print differently. */
  lemma {:induction false} NatToStringInjective(a: nat, b: nat)
    requires NatToString(a) == NatToString(b)
    ensures a == b
  {
    var sa, sb := NatToString(a), NatToString(b);
    if a < 10 && b < 10 {
      assert Digit(a) == sa[0] == sb[0] == Digit(b);
    } else if a >= 10 && b >= 10 {
      assert sa == NatToString(a / 10) + [Digit(a % 10)];
      assert sb == NatToString(b / 10) + [Digit(b % 10)];
      assert sa[..|sa| - 1] == NatToString(a / 10);
      assert sb[..|sb| - 1] == NatToString(b / 10);
      NatToStringInjective(a / 10, b / 10);
      assert Digit(a % 10) == sa[|sa| - 1] == sb[|sb| - 1] == Digit(b % 10);
    }
  }
}

=== FILE: chunker.dfy ===
/** The token-window chunker of `DocumentProcessor.chunkText`: a window of
    `chunkSize` tokens slides over the token sequence of a document, each
    window is decoded back to text, blank windows are dropped and every
    other window becomes a chunk with a deterministic id.

    The tokenizer and the decoder are external: the tokens are an input and
    `decode` is an arbitrary function from a token window to text. */
module Chunker {
  import opened Basics
  import opened Text
  import opened Chunks

  /** What the file reader knows about a document besides its text. */
  datatype SourceMeta = SourceMeta(title: Option<string>, page: Option<int>)

  /** The half-open token window `[start, end)`. */
  datatype Window = Window(start: nat, end: nat)

  /** How the cursor moves after an emitted window. `AsWritten` is the
      program's rule, `max(start + 1, end - overlap)` even when the window
      already reached the last token; `StopAtEnd` ends the walk there. */
  datatype Policy = AsWritten | StopAtEnd

  predicate IsAsciiAlphanumeric(c: char) {
    ('a' <= c <= 'z') || ('A' <= c <= 'Z') || ('0' <= c <= '9')
  }

  /** The replacement of every character outside `[a-zA-Z0-9]` by `_`. */
  function Sanitize(source: string): (r: string)
    ensures |r| == |source|
    ensures forall i :: 0 <= i < |r| ==> IsAsciiAlphanumeric(r[i]) || r[i] == '_'
    ensures forall i :: 0 <= i < |r| && IsAsciiAlphanumeric(source[i]) ==> r[i] == source[i]
    ensures forall i :: 0 <= i < |r| && !IsAsciiAlphanumeric(source[i]) ==> r[i] == '_'
  {
    seq(|source|, i requires 0 <= i < |source| =>
      if IsAsciiAlphanumeric(source[i]) then source[i] else '_')
  }

  /** The id of the chunk with index `index` of document `source`: the
      sanitised source, `_chunk_`, and the index in decimal, with no
      leading zero. */
  function ChunkId(source: string, index: nat): (id: string)
    ensures |id| > |source| + 7
    ensures id[..|source|] == Sanitize(source)
    ensures id[|source|..|source| + 7] == "_chunk_"
    ensures forall i :: |source| + 7 <= i < |id| ==> '0' <= id[i] <= '9'
    ensures DecimalValue(id[|source| + 7..]) == index
    ensures id[|source| + 7] == '0' <==> index == 0
    ensures index == 0 ==> |id| == |source| + 8
  {
    var id := Sanitize(source) + "_chunk_" + NatToString(index);
    assert id[|source| + 7..] == NatToString(index);
    id
  }

  /** Ids of one document are pairwise distinct. */
  lemma ChunkIdsDistinct(source: string, i: nat, j: nat)
    requires i != j
    ensures ChunkId(source, i) != ChunkId(source, j)
  {
  }

  /** An id never contains `#`, the separator of a resource locator. */
  lemma ChunkIdHasNoHash(source: string, index: nat)
    ensures '#' !in ChunkId(source, index)
  {
    var id := ChunkId(source, index);
    var n := |source|;
    forall k | 0 <= k < |id| ensures id[k] != '#' {
      if k < n {
        assert id[k] == id[..n][k];
      } else if k < n + 7 {
        assert id[k] == id[n..n + 7][k - n];
      }
    }
  }

  /** `Math.ceil(n / d)` for a positive divisor. */
  function CeilDiv(n: nat, d: nat): (q: nat)
    requires d >= 1
    ensures q * d >= n
    ensures (q - 1) * d < n || q == 0
  {
    (n + d - 1) / d
  }

  /** The end of the window that starts at `start`: `chunkSize` tokens
      on, or the end of the tokens if that comes first. */
  function WindowEnd(start: nat, chunkSize: nat, n: nat): (e: nat)
    ensures e <= start + chunkSize && e <= n
    ensures e == start + chunkSize || e == n
  {
    Min(start + chunkSize, n)
  }

  /** Decoding followed by `trim`: the text a window contributes. The walk
      below is written over this composite so that it depends only on which
      windows are blank, not on how trimming works. */
  function TrimmedDecode(decode: seq<int> -> string): seq<int> -> string {
    (t: seq<int>) => Trim(decode(t))
  }

  /** The text of a window under `text`. */
  function WindowText(tokens: seq<int>, text: seq<int> -> string, w: Window): string
    requires w.start <= w.end <= |tokens|
  {
    text(tokens[w.start..w.end])
  }

  /** The windows that the walk starting at `start` emits, in order, when
      `text` gives the trimmed text of a window: each
      lies inside the tokens, is as long as `chunkSize` allows, has
      non-blank text, and starts strictly after the previous one. */
  function Windows(tokens: seq<int>, text: seq<int> -> string, chunkSize: nat,
                   overlap: int, start: nat, policy: Policy): (ws: seq<Window>)
    requires chunkSize >= 1
    ensures start >= |tokens| ==> ws == []
    ensures forall i :: 0 <= i < |ws| ==>
      && start <= ws[i].start < ws[i].end <= |tokens|
      && ws[i].end == WindowEnd(ws[i].start, chunkSize, |tokens|)
      && WindowText(tokens, text, ws[i]) != []
    ensures forall i, j :: 0 <= i < j < |ws| ==>
      ws[j].start >= Max(ws[i].start + 1, ws[i].end - overlap)
    decreases |tokens| - start
  {
    if start >= |tokens| then []
    else
      var w := Window(start, WindowEnd(start, chunkSize, |tokens|));
      var emit := WindowText(tokens, text, w) != [];
      var next := NextStart(w, |tokens|, overlap, emit, policy);
      var rest := Windows(tokens, text, chunkSize, overlap, next, policy);
      if emit then [w] + rest else rest
  }

  /** There are at most as many windows as there are tokens left. */
  lemma {:induction false} WindowsLength(tokens: seq<int>, text: seq<int> -> string, chunkSize: nat,
                                         overlap: int, start: nat, policy: Policy)
    requires chunkSize >= 1 && start <= |tokens|
    ensures |Windows(tokens, text, chunkSize, overlap, start, policy)| <= |tokens| - start
    decreases |tokens| - start
  {
    if start < |tokens| {
      var w := Window(start, WindowEnd(start, chunkSize, |tokens|));
      var emit := WindowText(tokens, text, w) != [];
      var next := NextStart(w, |tokens|, overlap, emit, policy);
      if next <= |tokens| {
        WindowsLength(tokens, text, chunkSize, overlap, next, policy);
      }
    }
  }

  /** One step of the walk: the window at `start` is emitted exactly when
      its text is not blank, and the walk goes on from where the cursor
      moves. */
  lemma WindowsStep(tokens: seq<int>, text: seq<int> -> string, chunkSize: nat,
                    overlap: int, start: nat, policy: Policy)
    requires chunkSize >= 1 && start < |tokens|
    ensures var w := Window(start, WindowEnd(start, chunkSize, |tokens|));
      var emit := WindowText(tokens, text, w) != [];
      Windows(tokens, text, chunkSize, overlap, start, policy)
        == (if emit then [w] else []) + Windows(tokens, text, chunkSize, overlap, NextStart(w, |tokens|, overlap, emit, policy), policy)
  {
    var w := Window(start, WindowEnd(start, chunkSize, |tokens|));
    var emit := WindowText(tokens, text, w) != [];
    var rest := Windows(tokens, text, chunkSize, overlap, NextStart(w, |tokens|, overlap, emit, policy), policy);
    assert Windows(tokens, text, chunkSize, overlap, start, policy) == if emit then [w] + rest else rest;
    assert [] + rest == rest;
  }

  /** The window starting at `b` decodes to blank text and is dropped. */
  predicate DroppedAt(tokens: seq<int>, text: seq<int> -> string, chunkSize: nat, b: nat) {
    b < |tokens| && WindowText(tokens, text, Window(b, WindowEnd(b, chunkSize, |tokens|))) == []
  }

  /** Some window of `ws` holds token `p`. */
  predicate CoveredBy(ws: seq<Window>, p: nat) {
    exists i :: 0 <= i < |ws| && ws[i].start <= p < ws[i].end
  }

  /** Token `p` lies in a dropped blank window. */
  predicate InDropped(tokens: seq<int>, text: seq<int> -> string, chunkSize: nat, p: nat) {
    exists b: nat :: DroppedAt(tokens, text, chunkSize, b) && b <= p < WindowEnd(b, chunkSize, |tokens|)
  }

  /** No token is skipped: with a non-negative overlap, every token from
      `start` on lies in an emitted window or in a dropped blank one. */
  lemma {:induction false} WindowsCover(tokens: seq<int>, text: seq<int> -> string, chunkSize: nat,
                                        overlap: int, start: nat, policy: Policy, p: nat)
    requires chunkSize >= 1 && overlap >= 0 && start <= p < |tokens|
    ensures CoveredBy(Windows(tokens, text, chunkSize, overlap, start, policy), p)
            || InDropped(tokens, text, chunkSize, p)
    decreases |tokens| - start
  {
    var w := Window(start, WindowEnd(start, chunkSize, |tokens|));
    var emit := WindowText(tokens, text, w) != [];
    var next := NextStart(w, |tokens|, overlap, emit, policy);
    var rest := Windows(tokens, text, chunkSize, overlap, next, policy);
    WindowsStep(tokens, text, chunkSize, overlap, start, policy);
    if p < w.end {
      if emit {
        CoveredByFront(w, rest, p);
      } else {
        assert DroppedAt(tokens, text, chunkSize, start);
      }
    } else {
      assert next <= p;
      WindowsCover(tokens, text, chunkSize, overlap, next, policy, p);
      if CoveredBy(rest, p) {
        CoveredByRest(if emit then [w] else [], rest, p);
      }
    }
  }

  lemma CoveredByFront(w: Window, rest: seq<Window>, p: nat)
    requires w.start <= p < w.end
    ensures CoveredBy([w] + rest, p)
  {
    assert ([w] + rest)[0] == w;
  }

  lemma CoveredByRest(front: seq<Window>, rest: seq<Window>, p: nat)
    requires CoveredBy(rest, p)
    ensures CoveredBy(front + rest, p)
  {
    var i :| 0 <= i < |rest| && rest[i].start <= p < rest[i].end;
    assert (front + rest)[|front| + i] == rest[i];
  }

  /** Where the cursor goes after window `w`: past a dropped window to its
      end, with no overlap; past an emitted one to `max(start + 1, end -
      overlap)`, or, under `StopAtEnd`, to the end of the tokens once the
      window reached it. */
  function NextStart(w: Window, n: nat, overlap: int, emitted: bool, policy: Policy): (next: nat)
    requires w.start < w.end <= n
    ensures next > w.start
    ensures !emitted ==> next == w.end
    ensures emitted && policy.StopAtEnd? && w.end == n ==> next == n
    ensures emitted && !(policy.StopAtEnd? && w.end == n) ==> next == Max(w.start + 1, w.end - overlap)
  {
    if !emitted then w.end
    else if policy.StopAtEnd? && w.end == n then n
    else Max(w.start + 1, w.end - overlap)
  }

  /** The chunk built from the `index`-th emitted window: its id, the
      trimmed text of the window, and metadata that numbers it `index` of
      `ceil(N / chunkSize)` and carries the document's title and page. */
  function MakeChunk(tokens: seq<int>, decode: seq<int> -> string, source: string,
                     meta: SourceMeta, chunkSize: nat, w: Window, index: nat): (c: Chunk)
    requires chunkSize >= 1
    requires w.start <= w.end <= |tokens|
    ensures c.id == ChunkId(source, index)
    ensures c.content == Trim(decode(tokens[w.start..w.end]))
    ensures c.metadata.source == source && c.metadata.chunkIndex == index
    ensures c.metadata.totalChunks == CeilDiv(|tokens|, chunkSize)
    ensures c.metadata.title == meta.title && c.metadata.page == meta.page && c.metadata.distance.None?
  {
    Chunk(ChunkId(source, index), WindowText(tokens, TrimmedDecode(decode), w),
          Metadata(source, index, CeilDiv(|tokens|, chunkSize), meta.title, meta.page, None))
  }

  /** `chunkText`: one chunk per emitted window, in order, numbered 0, 1,
      2, ... (a dropped window takes no number); every content is non-blank
      and trimmed; the ids are distinct; every chunk carries
      `ceil(N / chunkSize)` as its total, whatever the number of chunks
      emitted; there are at most N chunks, and none for an empty document.
      Under `AsWritten` this is the program's walk; under the corrected
      `StopAtEnd` there are also at most `ceil(N / max(1, chunkSize -
      overlap))` chunks. A `chunkSize` below 1 makes the program loop
      forever, hence the precondition. */
  function ChunkText(tokens: seq<int>, decode: seq<int> -> string, source: string,
                     meta: SourceMeta, chunkSize: int, chunkOverlap: int, policy: Policy): (chunks: seq<Chunk>)
    requires chunkSize >= 1
    ensures |chunks| <= |tokens|
    ensures policy.StopAtEnd? && chunkOverlap >= 0 ==> |chunks| <= CeilDiv(|tokens|, Max(1, chunkSize - chunkOverlap))
    ensures |tokens| == 0 ==> chunks == []
    ensures forall i :: 0 <= i < |chunks| ==>
      && chunks[i].content != []
      && !IsWhitespace(chunks[i].content[0])
      && !IsWhitespace(chunks[i].content[|chunks[i].content| - 1])
    ensures forall i :: 0 <= i < |chunks| ==>
      && chunks[i].id == ChunkId(source, i)
      && chunks[i].metadata == Metadata(source, i, CeilDiv(|tokens|, chunkSize), meta.title, meta.page, None)
    ensures forall i, j :: 0 <= i < j < |chunks| ==> chunks[i].id != chunks[j].id
    ensures var ws := Windows(tokens, TrimmedDecode(decode), chunkSize, chunkOverlap, 0, policy);
      && |chunks| == |ws|
      && forall i :: 0 <= i < |chunks| ==> chunks[i].content == Trim(decode(tokens[ws[i].start..ws[i].end]))
  {
    var ws := Windows(tokens, TrimmedDecode(decode), chunkSize, chunkOverlap, 0, policy);
    var chunks := seq(|ws|, i requires 0 <= i < |ws| => MakeChunk(tokens, decode, source, meta, chunkSize, ws[i], i));
    EmittedChunkFacts(tokens, decode, source, meta, chunkSize, chunkOverlap, policy, chunks);
    StopAtEndCount(tokens, TrimmedDecode(decode), chunkSize, chunkOverlap, policy);
    chunks
  }

  /** What the chunks built from the emitted windows inherit from the walk. */
  lemma EmittedChunkFacts(tokens: seq<int>, decode: seq<int> -> string, source: string,
                          meta: SourceMeta, chunkSize: nat, chunkOverlap: int, policy: Policy, chunks: seq<Chunk>)
    requires chunkSize >= 1
    requires var ws := Windows(tokens, TrimmedDecode(decode), chunkSize, chunkOverlap, 0, policy);
      && |chunks| == |ws|
      && forall i :: 0 <= i < |chunks| ==>
           chunks[i] == MakeChunk(tokens, decode, source, meta, chunkSize, ws[i], i)
    ensures forall i :: 0 <= i < |chunks| ==>
      && chunks[i].content != []
      && !IsWhitespace(chunks[i].content[0])
      && !IsWhitespace(chunks[i].content[|chunks[i].content| - 1])
    ensures forall i, j :: 0 <= i < j < |chunks| ==> chunks[i].id != chunks[j].id
    ensures |chunks| <= |tokens|
    ensures var ws := Windows(tokens, TrimmedDecode(decode), chunkSize, chunkOverlap, 0, policy);
      forall i :: 0 <= i < |chunks| ==> chunks[i].content == Trim(decode(tokens[ws[i].start..ws[i].end]))
  {
    var text := TrimmedDecode(decode);
    var ws := Windows(tokens, text, chunkSize, chunkOverlap, 0, policy);
    WindowsLength(tokens, text, chunkSize, chunkOverlap, 0, policy);
    forall i | 0 <= i < |chunks|
      ensures chunks[i].content != []
      ensures !IsWhitespace(chunks[i].content[0])
      ensures !IsWhitespace(chunks[i].content[|chunks[i].content| - 1])
    {
      var t := decode(tokens[ws[i].start..ws[i].end]);
      assert chunks[i].content == WindowText(tokens, text, ws[i]) == Trim(t);
    }
    forall i, j | 0 <= i < j < |chunks| ensures chunks[i].id != chunks[j].id {
      ChunkIdsDistinct(source, i, j);
    }
  }

  /** As written, once a window reaches the last token the cursor moves on
      by a single token, so the walk keeps emitting ever shorter tail
      windows that lie inside the previous one. Five tokens, windows of
      four, overlap one, every window decoding to "x": the walk emits
      `[0,4)`, `[3,5)` and `[4,5)`, three chunks where
      `ceil(5 / (4 - 1)) = 2` was meant. */
  lemma AsWrittenTailExceedsBound()
    ensures var text := TrimmedDecode((t: seq<int>) => "x");
      var ws := Windows([0, 0, 0, 0, 0], text, 4, 1, 0, AsWritten);
      && ws == [Window(0, 4), Window(3, 5), Window(4, 5)]
      && |ws| > CeilDiv(5, 4 - 1)
      && |ws| > CeilDiv(5, 4)
  {
    var text := TrimmedDecode((t: seq<int>) => "x");
    var tokens := [0, 0, 0, 0, 0];
    TrimOfX();
    forall t: seq<int> ensures text(t) == "x" {}
    var w5 := Windows(tokens, text, 4, 1, 5, AsWritten);
    var w4 := Windows(tokens, text, 4, 1, 4, AsWritten);
    var w3 := Windows(tokens, text, 4, 1, 3, AsWritten);
    var w0 := Windows(tokens, text, 4, 1, 0, AsWritten);
    assert WindowText(tokens, text, Window(4, 5)) == "x";
    assert w4 == [Window(4, 5)] + w5;
    assert WindowText(tokens, text, Window(3, 5)) == "x";
    assert w3 == [Window(3, 5)] + w4;
    assert WindowText(tokens, text, Window(0, 4)) == "x";
    assert w0 == [Window(0, 4)] + w3;
  }

  lemma TrimOfX()
    ensures Trim("x") == "x"
  {
    assert !IsWhitespace('x');
    assert LeadingWhitespace("x") == 0;
    assert TrailingWhitespace("x") == 0;
  }

  /** With the cursor stopping once a window reaches the last token, every
      step moves it on by at least `max(1, chunkSize - overlap)` tokens, so
      the walk from `start` emits `m` windows only if `(m - 1) * step` is
      less than the number of tokens left. */
  lemma {:induction false} StopAtEndSteps(tokens: seq<int>, text: seq<int> -> string,
                                          chunkSize: nat, overlap: int, start: nat)
    requires chunkSize >= 1 && overlap >= 0
    ensures var ws := Windows(tokens, text, chunkSize, overlap, start, StopAtEnd);
      ws == [] || (|ws| - 1) * Max(1, chunkSize - overlap) < |tokens| - start
    decreases |tokens| - start
  {
    var step := Max(1, chunkSize - overlap);
    if start < |tokens| {
      var w := Window(start, WindowEnd(start, chunkSize, |tokens|));
      var emit := WindowText(tokens, text, w) != [];
      var next := NextStart(w, |tokens|, overlap, emit, StopAtEnd);
      var rest := Windows(tokens, text, chunkSize, overlap, next, StopAtEnd);
      var ws := Windows(tokens, text, chunkSize, overlap, start, StopAtEnd);
      assert ws == if emit then [w] + rest else rest;
      if w.end == |tokens| {
        assert rest == [];
      } else {
        assert next >= start + step;
        StopAtEndSteps(tokens, text, chunkSize, overlap, next);
        OneMoreStep(|rest|, step, |tokens| - next, next - start, emit);
      }
    }
  }

  /** The intended bound: with `overlap >= 0` and the walk stopping at the
      last token, a document of N tokens yields at most
      `ceil(N / max(1, chunkSize - overlap))` windows. */
  lemma StopAtEndBound(tokens: seq<int>, text: seq<int> -> string, chunkSize: nat, overlap: int)
    requires chunkSize >= 1 && overlap >= 0
    ensures |Windows(tokens, text, chunkSize, overlap, 0, StopAtEnd)|
            <= CeilDiv(|tokens|, Max(1, chunkSize - overlap))
  {
    var step := Max(1, chunkSize - overlap);
    var ws := Windows(tokens, text, chunkSize, overlap, 0, StopAtEnd);
    var q := CeilDiv(|tokens|, step);
    StopAtEndSteps(tokens, text, chunkSize, overlap, 0);
    if |ws| > q {
      MultiplyMonotone(|ws| - 1, q, step);
    }
  }

  /** The bound in the form the chunker states it: it holds under the
      corrected policy. */
  lemma StopAtEndCount(tokens: seq<int>, text: seq<int> -> string, chunkSize: nat, overlap: int, policy: Policy)
    requires chunkSize >= 1
    ensures policy.StopAtEnd? && overlap >= 0 ==>
      |Windows(tokens, text, chunkSize, overlap, 0, policy)| <= CeilDiv(|tokens|, Max(1, chunkSize - overlap))
  {
    if policy.StopAtEnd? && overlap >= 0 {
      StopAtEndBound(tokens, text, chunkSize, overlap);
    }
  }

  /** The arithmetic of one more step: `m` windows after a move of at least
      `step` tokens, with `(m - 1) * step` below the `left` tokens after the
      move, plus possibly the one before it. */
  lemma OneMoreStep(m: nat, step: nat, left: int, moved: int, emitted: bool)
    requires moved >= step && left + moved > 0
    requires m == 0 || (m - 1) * step < left
    ensures var total := if emitted then m + 1 else m;
      total == 0 || (total - 1) * step < left + moved
  {
    if emitted && m > 0 {
      assert (m - 1) * step + step == m * step;
    }
  }

  lemma MultiplyMonotone(a: int, b: int, c: nat)
    requires a >= b
    ensures a * c >= b * c
  {
  }
}

=== FILE: chunks.dfy ===
/** The stored unit: a chunk of a document with its metadata. */
module Chunks {
  import opened Basics

  /** Per-chunk metadata. `title` and `page` come from the file reader and
      may be absent; `distance` is filled in only on search results. */
  datatype Metadata = Metadata(
    source: string,
    chunkIndex: nat,
    totalChunks: nat,
    title: Option<string>,
    page: Option<int>,
    distance: Option<real>)

  datatype Chunk = Chunk(id: string, content: string, metadata: Metadata)

  /** The chunk as a search result reports it: same id, content and
      metadata, with `distance` set. */
  function WithDistance(c: Chunk, d: real): (r: Chunk)
    ensures r.id == c.id && r.content == c.content
    ensures r.metadata == c.metadata.(distance := Some(d))
  {
    c.(metadata := c.metadata.(distance := Some(d)))
  }

  /** The sources of a batch of chunks, as a set. */
  ghost function SourceSet(chunks: seq<Chunk>): set<string> {
    set c | c in chunks :: c.metadata.source
  }

  /** The sources of a batch of chunks, in batch order. */
  function SourceList(chunks: seq<Chunk>): (r: seq<string>)
    ensures |r| == |chunks|
    ensures forall i :: 0 <= i < |chunks| ==> r[i] == chunks[i].metadata.source
  {
    seq(|chunks|, i requires 0 <= i < |chunks| => chunks[i].metadata.source)
  }

  lemma SourceListMembers(chunks: seq<Chunk>)
    ensures forall s :: s in SourceList(chunks) <==> s in SourceSet(chunks)
  {
    var l := SourceList(chunks);
    forall s ensures s in l <==> s in SourceSet(chunks) {
      if s in l {
        var i :| 0 <= i < |l| && l[i] == s;
        assert chunks[i] in chunks;
      }
      if s in SourceSet(chunks) {
        var c :| c in chunks && c.metadata.source == s;
        var i :| 0 <= i < |chunks| && chunks[i] == c;
        assert l[i] == s;
      }
    }
  }
}

=== FILE: memory.dfy ===
/** The store's in-memory fallback: a JavaScript `Map` from chunk id to
    chunk. A `Map` remembers the order in which keys were first inserted;
    `set` on a key that is already present replaces the value and keeps the
    key where it was, `delete` drops the key, and iteration follows the key
    order. */
module Memory {
  import opened Basics
  import opened Chunks

  /** The keys in insertion order, beside the map they index. */
  datatype ChunkMap = ChunkMap(keys: seq<string>, entries: map<string, Chunk>)

  /** Every key occurs once in the order, the order holds exactly the
      keys of the map, and every chunk is filed under its own id. */
  predicate Valid(m: ChunkMap) {
    && NoDuplicates(m.keys)
    && (forall k | k in m.keys :: k in m.entries)
    && (forall k | k in m.entries :: k in m.keys)
    && (forall k | k in m.entries :: m.entries[k].id == k)
  }

  type ChunkStore = m: ChunkMap | Valid(m) witness ChunkMap([], map[])

  const Empty: ChunkStore := ChunkMap([], map[])

  /** `Map.prototype.get`: a chunk found under an id has that id. */
  function Get(m: ChunkStore, id: string): (r: Option<Chunk>)
    ensures r.Some? ==> r.value.id == id
  {
    if id in m.entries then Some(m.entries[id]) else None
  }

  /** `Map.prototype.size`: the number of keys, which is also the number
      of entries of the underlying map. */
  function Size(m: ChunkStore): (n: nat)
    ensures n == |m.entries|
  {
    NoDuplicatesCardinality(m.keys);
    assert m.entries.Keys == set k | k in m.keys;
    |m.keys|
  }

  /** `Map.prototype.values()`: the chunks in key order. */
  function Values(m: ChunkStore): (vs: seq<Chunk>)
    ensures |vs| == |m.keys|
    ensures forall i :: 0 <= i < |vs| ==> Get(m, m.keys[i]) == Some(vs[i])
    ensures forall c :: c in vs <==> exists id :: Get(m, id) == Some(c)
  {
    var vs := seq(|m.keys|, i requires 0 <= i < |m.keys| => m.entries[m.keys[i]]);
    assert forall c :: (exists id :: Get(m, id) == Some(c)) ==> c in vs by {
      forall c | exists id :: Get(m, id) == Some(c) ensures c in vs {
        var id :| Get(m, id) == Some(c);
        var i :| 0 <= i < |m.keys| && m.keys[i] == id;
        assert vs[i] == c;
      }
    }
    vs
  }

  /** A chunk of the memory is found under its own id. */
  lemma ValueIsFiledUnderItsId(m: ChunkStore, c: Chunk)
    requires c in Values(m)
    ensures Get(m, c.id) == Some(c)
  {
    var id :| Get(m, id) == Some(c);
  }

  /** `Map.prototype.set(c.id, c)`: the id now maps to `c` and nothing
      else changes; a new id goes to the end of the order, a present one
      keeps its place. */
  function Put(m: ChunkStore, c: Chunk): (r: ChunkStore)
    ensures Get(r, c.id) == Some(c)
    ensures forall id :: id != c.id ==> Get(r, id) == Get(m, id)
    ensures c.id in m.entries ==> r.keys == m.keys
    ensures c.id !in m.entries ==> r.keys == m.keys + [c.id]
  {
    if c.id in m.entries then
      ChunkMap(m.keys, m.entries[c.id := c])
    else
      var keys := m.keys + [c.id];
      assert forall i :: 0 <= i < |m.keys| ==> keys[i] == m.keys[i];
      ChunkMap(keys, m.entries[c.id := c])
  }

  /** The last chunk of the batch with id `id`, if any. */
  function LastWithId(cs: seq<Chunk>, id: string): (r: Option<Chunk>)
    ensures r.None? <==> forall i :: 0 <= i < |cs| ==> cs[i].id != id
    ensures r.Some? ==> IsLastWithId(cs, id, r.value)
  {
    if cs == [] then None
    else
      var rest := LastWithId(cs[1..], id);
      var r := rest.Or(if cs[0].id == id then Some(cs[0]) else None);
      LastWithIdNone(cs, id, rest, r);
      LastWithIdSome(cs, id, rest, r);
      r
  }

  /** `c` is a chunk of the batch with id `id` and no later chunk has it. */
  predicate IsLastWithId(cs: seq<Chunk>, id: string, c: Chunk) {
    exists i :: 0 <= i < |cs| && cs[i] == c && cs[i].id == id && forall j :: i < j < |cs| ==> cs[j].id != id
  }

  lemma LastWithIdNone(cs: seq<Chunk>, id: string, rest: Option<Chunk>, r: Option<Chunk>)
    requires cs != [] && (rest.None? <==> forall i :: 0 <= i < |cs[1..]| ==> cs[1..][i].id != id)
    requires r == rest.Or(if cs[0].id == id then Some(cs[0]) else None)
    ensures r.None? <==> forall i :: 0 <= i < |cs| ==> cs[i].id != id
  {
    assert forall i :: 1 <= i < |cs| ==> cs[i] == cs[1..][i - 1];
  }

  lemma LastWithIdSome(cs: seq<Chunk>, id: string, rest: Option<Chunk>, r: Option<Chunk>)
    requires cs != [] && (rest.None? <==> forall i :: 0 <= i < |cs[1..]| ==> cs[1..][i].id != id)
    requires rest.Some? ==> IsLastWithId(cs[1..], id, rest.value)
    requires r == rest.Or(if cs[0].id == id then Some(cs[0]) else None)
    ensures r.Some? ==> IsLastWithId(cs, id, r.value)
  {
    if rest.Some? {
      var i :| 0 <= i < |cs[1..]| && cs[1..][i] == rest.value && cs[1..][i].id == id
               && forall j :: i < j < |cs[1..]| ==> cs[1..][j].id != id;
      assert cs[i + 1] == rest.value;
      assert forall j :: i + 1 < j < |cs| ==> cs[j] == cs[1..][j - 1];
    } else if cs[0].id == id {
      assert forall j :: 0 < j < |cs| ==> cs[j] == cs[1..][j - 1];
    }
  }

  /** In a batch with distinct ids, each chunk is the last with its id. */
  lemma LastWithIdOfDistinct(cs: seq<Chunk>, i: nat)
    requires i < |cs|
    requires forall j, l :: 0 <= j < l < |cs| ==> cs[j].id != cs[l].id
    ensures LastWithId(cs, cs[i].id) == Some(cs[i])
  {
    var j :| 0 <= j < |cs| && cs[j] == LastWithId(cs, cs[i].id).value && cs[j].id == cs[i].id
             && forall l :: j < l < |cs| ==> cs[l].id != cs[i].id;
    assert j == i;
  }

  /** The ids of a batch. */
  function Ids(cs: seq<Chunk>): (ids: seq<string>)
    ensures |ids| == |cs|
    ensures forall i :: 0 <= i < |cs| ==> ids[i] == cs[i].id
  {
    seq(|cs|, i requires 0 <= i < |cs| => cs[i].id)
  }

  /** `addToMemory`: `set` for every chunk of the batch, in order. Each id
      ends up with the last chunk of the batch carrying it; ids the batch
      does not mention keep their entry; the keys already present keep
      their place at the front, and the new ids of the batch follow in the
      order they first appear in it. */
  function PutAll(m: ChunkStore, cs: seq<Chunk>): (r: ChunkStore)
    ensures forall id :: Get(r, id) == LastWithId(cs, id).Or(Get(m, id))
    ensures |m.keys| <= |r.keys| && r.keys[..|m.keys|] == m.keys
    ensures forall id :: id in r.keys <==> id in m.keys || id in Ids(cs)
    ensures r.keys == Distinct(m.keys + Ids(cs))
    decreases |cs|
  {
    if cs == [] then
      PutAllKeysEmpty(m, cs);
      m
    else
      var m1 := Put(m, cs[0]);
      var r := PutAll(m1, cs[1..]);
      PutAllStep(m, cs, r);
      PutAllKeys(m, cs, r);
      DistinctKeepsPrefix(m.keys, Ids(cs));
      r
  }

  /** The inductive step of `PutAll` for the key order: one `set`, then the
      rest of the batch, orders the keys as the whole batch does. */
  lemma PutAllKeys(m: ChunkStore, cs: seq<Chunk>, r: ChunkStore)
    requires cs != []
    requires r.keys == Distinct(Put(m, cs[0]).keys + Ids(cs[1..]))
    ensures r.keys == Distinct(m.keys + Ids(cs))
  {
    PutKeys(m, cs[0]);
    IdsFront(cs);
    KeysAfterSet(m.keys, cs[0].id, Ids(cs[1..]));
  }

  lemma PutAllKeysEmpty(m: ChunkStore, cs: seq<Chunk>)
    requires cs == []
    ensures m.keys == Distinct(m.keys + Ids(cs))
  {
    assert m.keys + Ids(cs) == m.keys;
    DistinctOfNoDuplicates(m.keys);
  }

  /** The key order after one `set`. */
  lemma PutKeys(m: ChunkStore, c: Chunk)
    ensures Put(m, c).keys == if c.id in m.keys then m.keys else m.keys + [c.id]
  {
  }

  lemma IdsFront(cs: seq<Chunk>)
    requires cs != []
    ensures Ids(cs) == [cs[0].id] + Ids(cs[1..])
  {
  }

  /** A key order without duplicates: `set` of `x`, then the ids `rest`,
      orders the keys as the ids `[x] + rest` after the old keys do. */
  lemma KeysAfterSet(keys: seq<string>, x: string, rest: seq<string>)
    requires NoDuplicates(keys)
    ensures Distinct((if x in keys then keys else keys + [x]) + rest) == Distinct(keys + ([x] + rest))
  {
    assert keys + ([x] + rest) == (keys + [x]) + rest;
    DistinctOfNoDuplicates(keys);
    DistinctSnoc(keys, x);
    DistinctOfDistinctPrefix(keys + [x], rest);
  }

  /** The inductive step of `PutAll` for lookups: what the rest of the
      batch does after the first `set` is what the whole batch does. */
  lemma PutAllStep(m: ChunkStore, cs: seq<Chunk>, r: ChunkStore)
    requires cs != []
    requires forall id :: Get(r, id) == LastWithId(cs[1..], id).Or(Get(Put(m, cs[0]), id))
    ensures forall id :: Get(r, id) == LastWithId(cs, id).Or(Get(m, id))
  {
    forall id ensures Get(r, id) == LastWithId(cs, id).Or(Get(m, id)) {
    }
  }

  /** `keys` without its first element still has no duplicates. */
  lemma NoDuplicatesTail(keys: seq<string>)
    requires keys != []
    ensures NoDuplicates(keys) ==> NoDuplicates(keys[1..]) && keys[0] !in keys[1..]
  {
    if NoDuplicates(keys) {
      NoDuplicatesTailFacts(keys);
    }
  }

  lemma NoDuplicatesTailFacts(keys: seq<string>)
    requires keys != [] && NoDuplicates(keys)
    ensures NoDuplicates(keys[1..]) && keys[0] !in keys[1..]
  {
    forall i, j | 0 <= i < j < |keys[1..]| ensures keys[1..][i] != keys[1..][j] {
      assert keys[1..][i] == keys[i + 1] && keys[1..][j] == keys[j + 1];
    }
    forall j | 0 <= j < |keys[1..]| ensures keys[1..][j] != keys[0] {
      assert keys[1..][j] == keys[j + 1];
    }
  }

  /** The keys of `keys` whose entry does not have source `source`, in
      their original order. */
  function KeepOtherSources(keys: seq<string>, entries: map<string, Chunk>, source: string): (r: seq<string>)
    requires forall k | k in keys :: k in entries
    ensures forall k :: k in r <==> k in keys && entries[k].metadata.source != source
    ensures NoDuplicates(keys) ==> NoDuplicates(r)
    ensures |r| <= |keys|
    ensures SubsequenceBy(r, keys, (k: string) => k)
  {
    if keys == [] then []
    else
      var rest := KeepOtherSources(keys[1..], entries, source);
      assert ([keys[0]] + rest)[1..] == rest;
      assert forall k :: k in keys <==> k == keys[0] || k in keys[1..];
      NoDuplicatesTail(keys);
      if entries[keys[0]].metadata.source != source then [keys[0]] + rest else rest
  }

  /** A key list whose entries all avoid the source is kept whole. */
  lemma {:induction false} KeepOtherSourcesUnchanged(keys: seq<string>, entries: map<string, Chunk>, source: string)
    requires forall k | k in keys :: k in entries
    requires forall k | k in keys :: entries[k].metadata.source != source
    ensures KeepOtherSources(keys, entries, source) == keys
  {
    if keys != [] {
      assert forall k | k in keys[1..] :: k in keys;
      KeepOtherSourcesUnchanged(keys[1..], entries, source);
    }
  }

  /** `deleteFromMemoryBySource`: every entry whose source is `source` is
      deleted and every other entry stays, in its place. */
  function RemoveSource(m: ChunkStore, source: string): (r: ChunkStore)
    ensures forall id :: Get(r, id) == (if Get(m, id).Some? && Get(m, id).value.metadata.source == source then None else Get(m, id))
    ensures r.keys == KeepOtherSources(m.keys, m.entries, source)
  {
    var keys := KeepOtherSources(m.keys, m.entries, source);
    var entries := map k | k in m.entries && m.entries[k].metadata.source != source :: m.entries[k];
    ChunkMap(keys, entries)
  }

  /** Deleting a source twice is deleting it once. */
  lemma RemoveSourceIdempotent(m: ChunkStore, source: string)
    ensures RemoveSource(RemoveSource(m, source), source) == RemoveSource(m, source)
  {
    var r := RemoveSource(m, source);
    KeepOtherSourcesUnchanged(r.keys, r.entries, source);
    Extensional(RemoveSource(r, source), r);
  }

  /** Two stores with the same key order and the same lookups are equal. */
  lemma Extensional(a: ChunkStore, b: ChunkStore)
    requires a.keys == b.keys
    requires forall id :: Get(a, id) == Get(b, id)
    ensures a == b
  {
    assert a.entries.Keys == b.entries.Keys;
    assert forall id | id in a.entries :: a.entries[id] == b.entries[id] by {
      forall id | id in a.entries ensures a.entries[id] == b.entries[id] {
        assert Get(a, id) == Get(b, id);
      }
    }
  }

  /** `deleteFromMemoryBySource` for each source of a list, in order: an
      entry goes exactly when its source is one of them. */
  function RemoveSources(m: ChunkStore, sources: seq<string>): (r: ChunkStore)
    ensures forall id :: Get(r, id) == (if Get(m, id).Some? && Get(m, id).value.metadata.source in sources then None else Get(m, id))
    decreases |sources|
  {
    if sources == [] then m
    else
      var r := RemoveSources(RemoveSource(m, sources[0]), sources[1..]);
      assert forall s :: s in sources <==> s == sources[0] || s in sources[1..];
      r
  }

  /** `Map.prototype.clear`. */
  function Clear(m: ChunkStore): (r: ChunkStore)
    ensures forall id :: Get(r, id) == None
    ensures Size(r) == 0
  {
    Empty
  }
}

=== FILE: rag_service.dfy ===
/** The service the tool and resource handlers talk to (`RAGService`).
    Its state is the store; search, chunk lookup and index refresh are
    passed straight to the store, and ingestion replaces the documents of
    a directory.

    The document processor that reads a directory is external: it is a
    parameter that maps the resolved path to the chunks of every document
    found there, or to the error it threw. Path resolution against the
    working directory is a parameter too. */
module RagService {
  import opened Basics
  import opened Text
  import opened Chunks
  import opened Memory
  import opened VectorStore

  /** The directory to ingest: the argument when it is given and not empty
      (an empty string is falsy), the configured documents path otherwise;
      an absolute path is used as it is, any other is resolved against the
      working directory. */
  function ResolvePath(arg: Option<string>, documentsPath: string, cwd: string,
                       resolve: (string, string) -> string): (p: string)
    ensures arg.Some? && StartsWith(arg.value, "/") ==> p == arg.value
    ensures arg.Some? && arg.value != [] && !StartsWith(arg.value, "/") ==> p == resolve(cwd, arg.value)
    ensures (arg.None? || arg.value == []) && StartsWith(documentsPath, "/") ==> p == documentsPath
    ensures (arg.None? || arg.value == []) && !StartsWith(documentsPath, "/") ==> p == resolve(cwd, documentsPath)
  {
    var path := if arg.Some? && arg.value != [] then arg.value else documentsPath;
    if StartsWith(path, "/") then path else resolve(cwd, path)
  }

  /** When the resolver always yields an absolute path, so does ResolvePath,
      and handing its result back as the argument changes nothing. */
  lemma ResolvePathIdempotent(arg: Option<string>, documentsPath: string, cwd: string,
                              resolve: (string, string) -> string)
    requires forall a, b :: StartsWith(resolve(a, b), "/")
    ensures var p := ResolvePath(arg, documentsPath, cwd, resolve);
      && StartsWith(p, "/")
      && ResolvePath(Some(p), documentsPath, cwd, resolve) == p
  {
    var p := ResolvePath(arg, documentsPath, cwd, resolve);
    var path := if arg.Some? && arg.value != [] then arg.value else documentsPath;
    if !StartsWith(path, "/") {
      assert p == resolve(cwd, path);
    }
  }

  /** `deleteBySource` for each source in turn; `answer` says what the
      primary delete answered for a source. An entry leaves the memory
      exactly when its source is one of them and the delete of that source
      went to memory. */
  function DeleteSources(s: Store, sources: seq<string>, answer: string -> Outcome<()>): (r: Store)
    ensures r.mode == s.mode
    ensures forall id :: Get(r.memory, id) == if Get(s.memory, id).Some? && DeletedFromMemory(s, Get(s.memory, id).value.metadata.source, sources, answer) then None else Get(s.memory, id)
    decreases |sources|
  {
    if sources == [] then s
    else
      var s1 := DeleteBySource(s, sources[0], answer(sources[0]));
      var r := DeleteSources(s1, sources[1..], answer);
      DeleteSourcesStep(s, s1, sources, answer);
      r
  }

  /** Source `x` is one of `sources` and its delete fell back to memory. */
  predicate DeletedFromMemory(s: Store, x: string, sources: seq<string>, answer: string -> Outcome<()>) {
    x in sources && !PrimaryAnswered(s, answer(x))
  }

  lemma DeleteSourcesStep(s: Store, s1: Store, sources: seq<string>, answer: string -> Outcome<()>)
    requires sources != [] && s1 == DeleteBySource(s, sources[0], answer(sources[0]))
    ensures forall x :: DeletedFromMemory(s, x, sources, answer) <==>
      (x == sources[0] && !PrimaryAnswered(s, answer(x))) || DeletedFromMemory(s1, x, sources[1..], answer)
  {
    assert forall x :: x in sources <==> x == sources[0] || x in sources[1..];
  }

  /** What an ingestion reports: the number of distinct documents and the
      number of chunks. */
  datatype IngestReport = IngestReport(processed: nat, chunks: nat)

  /** The store side of ingesting a non-empty batch: `deleteBySource` for
      every distinct source of the batch, in order of first appearance,
      then `addDocuments` of the whole batch. `deleteAnswer` and
      `addAnswer` are what the primary collection answered to those calls.
      In fallback mode this replaces documents: an id the batch carries
      maps to the batch's last chunk with it; any other id keeps its entry
      unless that entry came from a document of the batch, which is gone. */
  function ReplaceDocuments(s: Store, batch: seq<Chunk>, deleteAnswer: string -> Outcome<()>,
                            addAnswer: Outcome<()>): (r: Store)
    ensures r.mode == s.mode
    ensures s.mode == Fallback ==> forall id :: Get(r.memory, id) == LastWithId(batch, id).Or(Get(RemoveSources(s.memory, SourceList(batch)), id))
    ensures forall id :: Get(r.memory, id) == AfterReplace(s, batch, deleteAnswer, addAnswer, id)
  {
    var s1 := DeleteSources(s, Distinct(SourceList(batch)), deleteAnswer);
    var r := AddDocuments(s1, batch, addAnswer);
    FallbackDeletes(s, s1, batch, deleteAnswer);
    ReplaceLookups(s, s1, r, batch, deleteAnswer, addAnswer);
    r
  }

  /** What the memory holds under `id` after an ingestion in either mode:
      an entry stays unless its source belongs to the batch and the
      primary delete of that source threw (or there is no primary); the
      batch's last chunk with the id then takes the place when the batch
      went to memory because the primary `add` threw or there is no
      primary. */
  function AfterReplace(s: Store, batch: seq<Chunk>, deleteAnswer: string -> Outcome<()>,
                        addAnswer: Outcome<()>, id: string): Option<Chunk>
  {
    var before := Get(s.memory, id);
    var kept := if before.Some? && DeletedFromMemory(s, before.value.metadata.source, SourceList(batch), deleteAnswer) then None else before;
    if batch != [] && !PrimaryAnswered(s, addAnswer) then LastWithId(batch, id).Or(kept) else kept
  }

  lemma ReplaceLookups(s: Store, s1: Store, r: Store, batch: seq<Chunk>,
                       deleteAnswer: string -> Outcome<()>, addAnswer: Outcome<()>)
    requires s1 == DeleteSources(s, Distinct(SourceList(batch)), deleteAnswer)
    requires r == AddDocuments(s1, batch, addAnswer)
    ensures forall id :: Get(r.memory, id) == AfterReplace(s, batch, deleteAnswer, addAnswer, id)
  {
    forall id ensures Get(r.memory, id) == AfterReplace(s, batch, deleteAnswer, addAnswer, id) {
      ReplaceLookup(s, s1, r, batch, deleteAnswer, addAnswer, id);
    }
  }

  lemma ReplaceLookup(s: Store, s1: Store, r: Store, batch: seq<Chunk>,
                      deleteAnswer: string -> Outcome<()>, addAnswer: Outcome<()>, id: string)
    requires s1 == DeleteSources(s, Distinct(SourceList(batch)), deleteAnswer)
    requires r == AddDocuments(s1, batch, addAnswer)
    ensures Get(r.memory, id) == AfterReplace(s, batch, deleteAnswer, addAnswer, id)
  {
    var before := Get(s.memory, id);
    var kept := if before.Some? && DeletedFromMemory(s, before.value.metadata.source, SourceList(batch), deleteAnswer) then None else before;
    if before.Some? {
      var x := before.value.metadata.source;
      assert x in Distinct(SourceList(batch)) <==> x in SourceList(batch);
    }
    assert Get(s1.memory, id) == kept;
    assert PrimaryAnswered(s1, addAnswer) == PrimaryAnswered(s, addAnswer);
  }

  /** In fallback mode the deletes of an ingestion remove exactly the
      documents of the batch. */
  lemma FallbackDeletes(s: Store, s1: Store, batch: seq<Chunk>, deleteAnswer: string -> Outcome<()>)
    requires forall id :: Get(s1.memory, id) == if Get(s.memory, id).Some? && DeletedFromMemory(s, Get(s.memory, id).value.metadata.source, Distinct(SourceList(batch)), deleteAnswer) then None else Get(s.memory, id)
    ensures s.mode == Fallback ==> forall id :: Get(s1.memory, id) == Get(RemoveSources(s.memory, SourceList(batch)), id)
  {
    if s.mode == Fallback {
      forall id ensures Get(s1.memory, id) == Get(RemoveSources(s.memory, SourceList(batch)), id) {
        if Get(s.memory, id).Some? {
          FallbackDeleted(s, Get(s.memory, id).value.metadata.source, batch, deleteAnswer);
        }
      }
    }
  }

  /** In fallback mode every delete of an ingestion goes to memory. */
  lemma FallbackDeleted(s: Store, x: string, batch: seq<Chunk>, deleteAnswer: string -> Outcome<()>)
    requires s.mode == Fallback
    ensures DeletedFromMemory(s, x, Distinct(SourceList(batch)), deleteAnswer) <==> x in SourceList(batch)
  {
  }

  /** `ingestDocuments(path)`. The processor reads the resolved directory;
      its error is passed on. No chunks: nothing happens and both counts
      are 0. Otherwise the documents of the batch are replaced and the
      report counts the distinct sources, as a `Set` of them does, and the
      chunks. */
  function Ingest(s: Store, arg: Option<string>, documentsPath: string, cwd: string,
                  resolve: (string, string) -> string,
                  process: string -> Result<seq<Chunk>>,
                  deleteAnswer: string -> Outcome<()>, addAnswer: Outcome<()>): (r: Result<(Store, IngestReport)>)
    ensures var read := process(ResolvePath(arg, documentsPath, cwd, resolve));
      && (read.Failure? ==> r == Failure(read.error))
      && (read.Success? && read.value == [] ==> r == Success((s, IngestReport(0, 0))))
      && (read.Success? && read.value != [] ==>
            r == Success((ReplaceDocuments(s, read.value, deleteAnswer, addAnswer),
                          IngestReport(|SourceSet(read.value)|, |read.value|))))
  {
    match process(ResolvePath(arg, documentsPath, cwd, resolve))
    case Failure(e) => Failure(e)
    case Success(batch) =>
      if batch == [] then Success((s, IngestReport(0, 0)))
      else
        DistinctSourceCount(batch);
        Success((ReplaceDocuments(s, batch, deleteAnswer, addAnswer),
                 IngestReport(|Distinct(SourceList(batch))|, |batch|)))
  }

  /** The number of distinct sources of a batch, as a `Set` counts them. */
  lemma DistinctSourceCount(batch: seq<Chunk>)
    ensures |Distinct(SourceList(batch))| == |SourceSet(batch)|
  {
    DistinctSize(SourceList(batch));
    SourceListMembers(batch);
    assert (set x | x in SourceList(batch)) == SourceSet(batch);
  }

  /** With distinct chunk ids, a fallback ingestion leaves every chunk of
      the batch retrievable by its id. */
  lemma IngestThenGetChunk(s: Store, batch: seq<Chunk>, deleteAnswer: string -> Outcome<()>,
                           addAnswer: Outcome<()>, i: nat, fetch: Outcome<Option<Chunk>>)
    requires s.mode == Fallback && i < |batch|
    requires forall j, l :: 0 <= j < l < |batch| ==> batch[j].id != batch[l].id
    ensures GetChunk(ReplaceDocuments(s, batch, deleteAnswer, addAnswer), batch[i].id, fetch) == Some(batch[i])
  {
    LastWithIdOfDistinct(batch, i);
  }

  /** `getCollectionSummary` without the file statistics: the chunk count
      and the distinct sources of the store, and how many sources there
      are. */
  datatype Summary = Summary(totalChunks: nat, totalSources: nat, sources: seq<string>)

  function CollectionSummary(s: Store, stats: Outcome<seq<string>>): (r: Summary)
    ensures r.sources == CollectionStats(s, stats).sources
    ensures r.totalChunks == CollectionStats(s, stats).count
    ensures r.totalSources == |r.sources|
    ensures NoDuplicates(r.sources)
    ensures PrimaryAnswered(s, stats) ==> r.totalChunks == |stats.value|
    ensures !PrimaryAnswered(s, stats) ==> r.totalChunks == Size(s.memory)
    ensures forall x :: x in r.sources ==> x != []
  {
    var st := CollectionStats(s, stats);
    Summary(st.count, |st.sources|, st.sources)
  }

  /** After a fallback ingestion of a batch with distinct ids, the summary
      lists the source of every chunk of the batch that has one. */
  lemma IngestThenSummary(s: Store, batch: seq<Chunk>, deleteAnswer: string -> Outcome<()>,
                          addAnswer: Outcome<()>, i: nat, stats: Outcome<seq<string>>)
    requires s.mode == Fallback && i < |batch| && batch[i].metadata.source != []
    requires forall j, l :: 0 <= j < l < |batch| ==> batch[j].id != batch[l].id
    ensures batch[i].metadata.source in CollectionSummary(ReplaceDocuments(s, batch, deleteAnswer, addAnswer), stats).sources
  {
    var r := ReplaceDocuments(s, batch, deleteAnswer, addAnswer);
    IngestThenGetChunk(s, batch, deleteAnswer, addAnswer, i, Fail);
    assert Get(r.memory, batch[i].id) == Some(batch[i]);
  }
}

=== FILE: ranking.dfy ===
/** The store's text search over the in-memory chunks (`textSearch`): keep
    the chunks whose lower-cased content contains the lower-cased query,
    mark them with distance 0, sort them by the number of matches of the
    query, most first, and keep the first `k`.

    `Array.prototype.sort` is stable, so chunks with equal counts keep the
    order in which they were found, which is the memory's key order. */
module Ranking {
  import opened Basics
  import opened Text
  import opened Chunks
  import opened Memory

  /** The lower-cased content of `c` contains the (lower-cased) query. */
  predicate MatchesQuery(c: Chunk, q: string) {
    Contains(Lower(c.content), q)
  }

  /** The relevance of `c`: how often the (lower-cased) query matches its
      lower-cased content. */
  function Score(c: Chunk, q: string): nat {
    Occurrences(Lower(c.content), q)
  }

  /** The filtering loop: the matching chunks, in their original order,
      each marked with distance 0. */
  function Matches(cs: seq<Chunk>, q: string): (r: seq<Chunk>)
    ensures |r| <= |cs|
    ensures forall x :: x in r ==> exists c :: c in cs && MatchesQuery(c, q) && x == WithDistance(c, 0.0)
    ensures forall c :: c in cs && MatchesQuery(c, q) ==> WithDistance(c, 0.0) in r
    ensures SubsequenceBy(r, cs, (c: Chunk) => WithDistance(c, 0.0))
  {
    if cs == [] then []
    else
      var rest := Matches(cs[1..], q);
      assert ([WithDistance(cs[0], 0.0)] + rest)[1..] == rest;
      assert forall c :: c in cs <==> c == cs[0] || c in cs[1..];
      if MatchesQuery(cs[0], q) then [WithDistance(cs[0], 0.0)] + rest else rest
  }

  /** Non-increasing key. */
  predicate SortedByKey<T>(s: seq<T>, key: T -> nat) {
    forall i, j :: 0 <= i < j < |s| ==> key(s[i]) >= key(s[j])
  }

  /** The elements of `s` with key `v`, in order. */
  function WithKey<T>(s: seq<T>, key: T -> nat, v: nat): seq<T> {
    if s == [] then []
    else (if key(s[0]) == v then [s[0]] else []) + WithKey(s[1..], key, v)
  }

  /** `x` goes in front of the first element whose key is not larger. */
  function Insert<T>(x: T, r: seq<T>, key: T -> nat): seq<T> {
    if r == [] || key(x) >= key(r[0]) then [x] + r
    else [r[0]] + Insert(x, r[1..], key)
  }

  lemma {:induction false} InsertPermutes<T>(x: T, r: seq<T>, key: T -> nat)
    ensures multiset(Insert(x, r, key)) == multiset(r) + multiset{x}
    ensures |Insert(x, r, key)| == |r| + 1
  {
    if r != [] && key(x) < key(r[0]) {
      InsertPermutes(x, r[1..], key);
      assert r == [r[0]] + r[1..];
    }
  }

  lemma SortedTail<T>(r: seq<T>, key: T -> nat)
    requires r != [] && SortedByKey(r, key)
    ensures SortedByKey(r[1..], key)
    ensures forall y :: y in r[1..] ==> key(y) <= key(r[0])
  {
    forall i, j | 0 <= i < j < |r[1..]| ensures key(r[1..][i]) >= key(r[1..][j]) {
      assert r[1..][i] == r[i + 1] && r[1..][j] == r[j + 1];
    }
    forall y | y in r[1..] ensures key(y) <= key(r[0]) {
      var j :| 0 <= j < |r[1..]| && r[1..][j] == y;
      assert r[j + 1] == y;
    }
  }

  lemma SortedCons<T>(x: T, tail: seq<T>, key: T -> nat)
    requires SortedByKey(tail, key)
    requires forall y :: y in tail ==> key(y) <= key(x)
    ensures SortedByKey([x] + tail, key)
  {
    forall i, j | 0 <= i < j < |tail| + 1 ensures key(([x] + tail)[i]) >= key(([x] + tail)[j]) {
      assert ([x] + tail)[j] == tail[j - 1];
      assert tail[j - 1] in tail;
      if i > 0 {
        assert ([x] + tail)[i] == tail[i - 1];
      }
    }
  }

  lemma {:induction false} InsertSorted<T>(x: T, r: seq<T>, key: T -> nat)
    requires SortedByKey(r, key)
    ensures SortedByKey(Insert(x, r, key), key)
  {
    if r == [] || key(x) >= key(r[0]) {
      if r != [] {
        SortedTail(r, key);
        assert forall y :: y in r ==> y == r[0] || y in r[1..];
      }
      SortedCons(x, r, key);
    } else {
      var tail := Insert(x, r[1..], key);
      SortedTail(r, key);
      InsertSorted(x, r[1..], key);
      InsertPermutes(x, r[1..], key);
      forall y | y in tail ensures key(y) <= key(r[0]) {
        assert y in multiset(tail);
        if y != x {
          assert y in multiset(r[1..]);
        }
      }
      SortedCons(r[0], tail, key);
    }
  }

  /** Insertion keeps the elements of each key in order: the new one goes
      in front of its equals. */
  lemma {:induction false} InsertStable<T>(x: T, r: seq<T>, key: T -> nat, v: nat)
    ensures WithKey(Insert(x, r, key), key, v) == (if key(x) == v then [x] else []) + WithKey(r, key, v)
  {
    if r == [] || key(x) >= key(r[0]) {
      WithKeyCons(x, r, key, v);
    } else {
      InsertStable(x, r[1..], key, v);
      WithKeyCons(r[0], Insert(x, r[1..], key), key, v);
      WithKeyCons(r[0], r[1..], key, v);
      assert [r[0]] + r[1..] == r;
    }
  }

  lemma WithKeyCons<T>(y: T, s: seq<T>, key: T -> nat, v: nat)
    ensures WithKey([y] + s, key, v) == (if key(y) == v then [y] else []) + WithKey(s, key, v)
  {
    assert ([y] + s)[1..] == s;
  }

  /** A stable insertion sort, largest key first. */
  function SortByKey<T(==)>(s: seq<T>, key: T -> nat): (r: seq<T>)
    ensures |r| == |s|
    ensures multiset(r) == multiset(s)
    ensures SortedByKey(r, key)
  {
    if s == [] then []
    else
      var rest := SortByKey(s[1..], key);
      InsertPermutes(s[0], rest, key);
      InsertSorted(s[0], rest, key);
      assert s == [s[0]] + s[1..];
      Insert(s[0], rest, key)
  }

  /** Stability: the elements of any one key come out in the order they
      went in. */
  lemma {:induction false} SortByKeyStable<T>(s: seq<T>, key: T -> nat, v: nat)
    ensures WithKey(SortByKey(s, key), key, v) == WithKey(s, key, v)
  {
    if s != [] {
      SortByKeyStable(s[1..], key, v);
      InsertStable(s[0], SortByKey(s[1..], key), key, v);
      WithKeyCons(s[0], s[1..], key, v);
      assert [s[0]] + s[1..] == s;
    }
  }

  /** The relevance key for the (lower-cased) query `q`. */
  function ScoreKey(q: string): Chunk -> nat {
    c => Score(c, q)
  }

  /** `results.sort((a, b) => score(b) - score(a))`: most matches first,
      ties in the order found. */
  function SortByScore(s: seq<Chunk>, q: string): (r: seq<Chunk>)
    ensures |r| == |s|
    ensures multiset(r) == multiset(s)
    ensures SortedByKey(r, ScoreKey(q))
  {
    SortByKey(s, ScoreKey(q))
  }

  /** `Array.prototype.slice(0, k)`: the first `k` elements, or, for a
      negative `k`, all but the last `-k`. */
  function JsSlice<T>(s: seq<T>, k: int): (r: seq<T>)
    ensures |r| == if k >= 0 then Min(k, |s|) else Max(0, |s| + k)
    ensures r == s[..|r|]
  {
    if k >= 0 then s[..Min(k, |s|)] else s[..Max(0, |s| + k)]
  }

  /** `textSearch(query, k)` over the memory. Every result is a memory
      chunk that contains the query, marked with distance 0; they come most
      matches first; there are `min(k, matches)` of them (`slice` with a
      negative `k` drops the last `-k`); no matching chunk that was left out
      has more matches than one that was kept; and when `k` covers the
      whole memory every matching chunk is there. */
  function TextSearch(m: ChunkStore, query: string, k: int): (r: seq<Chunk>)
    ensures forall x :: x in r ==> exists c :: c in Values(m) && MatchesQuery(c, Lower(query))
                                                && x == WithDistance(c, 0.0)
    ensures var found := Matches(Values(m), Lower(query));
      |r| == if k >= 0 then Min(k, |found|) else Max(0, |found| + k)
    ensures SortedByKey(r, ScoreKey(Lower(query)))
    ensures forall x, y :: x in r && y in Matches(Values(m), Lower(query)) && y !in r ==>
      ScoreKey(Lower(query))(x) >= ScoreKey(Lower(query))(y)
    ensures k >= |m.keys| ==>
      forall c :: c in Values(m) && MatchesQuery(c, Lower(query)) ==> WithDistance(c, 0.0) in r
  {
    var q := Lower(query);
    var found := Matches(Values(m), q);
    var sorted := SortByScore(found, q);
    var r := JsSlice(sorted, k);
    SliceFacts(found, sorted, r, ScoreKey(q));
    SliceAll(sorted, k);
    r
  }

  /** Slicing at or beyond the end keeps everything. */
  lemma SliceAll<T>(s: seq<T>, k: int)
    ensures k >= |s| ==> JsSlice(s, k) == s
  {
  }

  /** A prefix of a sorted permutation of `found` holds only elements of
      `found` and is sorted; the whole of it holds all of `found`. */
  lemma SliceFacts<T>(found: seq<T>, sorted: seq<T>, r: seq<T>, key: T -> nat)
    requires multiset(sorted) == multiset(found) && SortedByKey(sorted, key)
    requires |r| <= |sorted| && r == sorted[..|r|]
    ensures forall x :: x in r ==> x in found
    ensures SortedByKey(r, key)
    ensures r == sorted ==> forall x :: x in found ==> x in r
    ensures forall x, y :: x in r && y in found && y !in r ==> key(x) >= key(y)
  {
    forall x, y | x in r && y in found && y !in r ensures key(x) >= key(y) {
      var i :| 0 <= i < |r| && r[i] == x;
      assert y in multiset(found);
      var j :| 0 <= j < |sorted| && sorted[j] == y;
      assert forall l | 0 <= l < |r| :: r[l] == sorted[l];
      assert j >= |r|;
      assert sorted[i] == x;
    }
    forall x | x in r ensures x in found {
      assert x in sorted;
      assert x in multiset(sorted);
    }
    forall x | x in found ensures x in sorted {
      assert x in multiset(found);
    }
    forall i, j | 0 <= i < j < |r| ensures key(r[i]) >= key(r[j]) {
      assert r[i] == sorted[i] && r[j] == sorted[j];
    }
  }

  /** The results of any one score are the first matching memory chunks
      of that score, in the memory's key order; when `k` covers the whole
      memory they are all of them. */
  lemma TextSearchTiesKeepMemoryOrder(m: ChunkStore, query: string, k: int, v: nat)
    ensures var q := Lower(query);
      var t := WithKey(TextSearch(m, query, k), ScoreKey(q), v);
      var all := WithKey(Matches(Values(m), q), ScoreKey(q), v);
      |t| <= |all| && t == all[..|t|]
    ensures k >= |m.keys| ==>
      var q := Lower(query);
      WithKey(TextSearch(m, query, k), ScoreKey(q), v) == WithKey(Matches(Values(m), q), ScoreKey(q), v)
  {
    var q := Lower(query);
    var found := Matches(Values(m), q);
    var sorted := SortByScore(found, q);
    var r := JsSlice(sorted, k);
    assert r == TextSearch(m, query, k);
    SortByKeyStable(found, ScoreKey(q), v);
    WithKeyOfPrefix(sorted, |r|, ScoreKey(q), v);
    SliceAll(sorted, k);
  }

  /** The elements of one key in a prefix are a prefix of that key's
      elements in the whole. */
  lemma WithKeyOfPrefix<T>(s: seq<T>, n: nat, key: T -> nat, v: nat)
    requires n <= |s|
    ensures var t := WithKey(s[..n], key, v);
      |t| <= |WithKey(s, key, v)| && t == WithKey(s, key, v)[..|t|]
  {
    assert s == s[..n] + s[n..];
    WithKeyAppend(s[..n], s[n..], key, v);
  }

  /** Picking the elements of one key distributes over concatenation. */
  lemma {:induction false} WithKeyAppend<T>(a: seq<T>, b: seq<T>, key: T -> nat, v: nat)
    ensures WithKey(a + b, key, v) == WithKey(a, key, v) + WithKey(b, key, v)
  {
    if a != [] {
      WithKeyAppend(a[1..], b, key, v);
      WithKeyCons(a[0], a[1..] + b, key, v);
      assert a + b == [a[0]] + (a[1..] + b);
      assert a == [a[0]] + a[1..];
      WithKeyCons(a[0], a[1..], key, v);
    } else {
      assert a + b == b;
    }
  }
}

=== FILE: resources.dfy ===
/** The MCP resource reader (`handleResourceRead`): the collection summary
    under one fixed URI, and any chunk under `rag://doc/<source>#<id>`. */
module Resources {
  import opened Basics
  import opened Text
  import opened Chunks
  import opened Memory
  import opened VectorStore
  import opened RagService
  import opened Tools
  import opened Ranking

  const SummaryUri: string := "rag://collection/summary"
  const DocPrefix: string := "rag://doc/"

  /** `isResourceUri`: the URI uses the `rag` scheme. Every URI the
      reader answers is one, and the reader refuses any other. */
  function IsResourceUri(uri: string): (b: bool)
    ensures b <==> StartsWith(uri, "rag://")
    ensures uri == SummaryUri || StartsWith(uri, DocPrefix) ==> b
    ensures !b ==> uri != SummaryUri && RequestedChunkId(uri).None?
  {
    assert StartsWith(uri, DocPrefix) ==> uri[..6] == DocPrefix[..6];
    StartsWith(uri, "rag://")
  }

  /** The chunk id a document URI asks for: the URI must start with
      `rag://doc/` and split on `#` into exactly two parts; the second part
      is the id. */
  function RequestedChunkId(uri: string): (id: Option<string>)
    ensures id.Some? ==> StartsWith(uri, DocPrefix) && multiset(uri)['#'] == 1
    ensures id.Some? ==> '#' !in id.value
    ensures StartsWith(uri, DocPrefix) && multiset(uri)['#'] == 1 ==> id.Some?
  {
    if StartsWith(uri, DocPrefix) then
      var parts := Split(uri, '#');
      if |parts| == 2 then Some(parts[1]) else None
    else None
  }

  /** What a resource read returns. */
  datatype ResourceBody =
    | SummaryBody(summary: Summary)
    | ChunkBody(id: string, content: string, metadata: Metadata, uri: string)

  /** `handleResourceRead(uri)`: the summary URI gives the summary; a
      document URI whose id the store finds gives that chunk, echoing the
      URI as asked; anything else is the error "Resource not found:
      <uri>". `stats` and `fetch` are what the primary collection answers
      to the summary's and the lookup's calls. */
  function HandleResourceRead(uri: string, s: Store, stats: Outcome<seq<string>>,
                              fetch: Outcome<Option<Chunk>>): (r: Result<ResourceBody>)
    ensures uri == SummaryUri ==> r == Success(SummaryBody(CollectionSummary(s, stats)))
    ensures uri != SummaryUri && RequestedChunkId(uri).None? ==> r == Failure("Resource not found: " + uri)
    ensures uri != SummaryUri && RequestedChunkId(uri).Some? ==>
      match GetChunk(s, RequestedChunkId(uri).value, fetch)
      case None => r == Failure("Resource not found: " + uri)
      case Some(c) => r == Success(ChunkBody(c.id, c.content, c.metadata, uri))
  {
    if uri == SummaryUri then Success(SummaryBody(CollectionSummary(s, stats)))
    else
      match RequestedChunkId(uri)
      case None => Failure("Resource not found: " + uri)
      case Some(id) =>
        match GetChunk(s, id, fetch)
        case None => Failure("Resource not found: " + uri)
        case Some(c) => Success(ChunkBody(c.id, c.content, c.metadata, uri))
  }

  /** The URI a tool reports for a chunk asks for that chunk's id, as long
      as its source has no `#`. */
  lemma LocatorRoundTrip(c: Chunk)
    requires '#' !in c.metadata.source && '#' !in c.id
    ensures RequestedChunkId(Locator(c)) == Some(c.id)
  {
    var a := DocPrefix + c.metadata.source;
    LocatorShape(c);
    RequestedIdOf(a, c.id);
  }

  /** The locator is a `#`-free document prefix, a `#` and the id. */
  lemma LocatorShape(c: Chunk)
    requires '#' !in c.metadata.source
    ensures Locator(c) == (DocPrefix + c.metadata.source) + ['#'] + c.id
    ensures '#' !in DocPrefix + c.metadata.source
    ensures StartsWith(DocPrefix + c.metadata.source, DocPrefix)
  {
    assert '#' !in DocPrefix;
    assert (DocPrefix + c.metadata.source)[..|DocPrefix|] == DocPrefix;
  }

  /** A document URI made of a `#`-free part, one `#` and a `#`-free id
      asks for that id. */
  lemma RequestedIdOf(a: string, id: string)
    requires StartsWith(a, DocPrefix) && '#' !in a && '#' !in id
    ensures RequestedChunkId(a + ['#'] + id) == Some(id)
  {
    var uri := a + ['#'] + id;
    assert uri[..|DocPrefix|] == a[..|DocPrefix|];
    SplitAroundSeparator(a, '#', id);
  }

  /** A `#` in the source breaks the URI: it no longer names any chunk. */
  lemma HashInSourceBreaksLocator(c: Chunk)
    requires '#' in c.metadata.source
    ensures RequestedChunkId(Locator(c)).None?
  {
    var a := DocPrefix + c.metadata.source;
    assert Locator(c) == a + ['#'] + c.id;
    HashCount(a, c.id);
  }

  /** The summary URI is not a document URI. */
  lemma DocumentUriIsNotSummary(uri: string)
    requires StartsWith(uri, DocPrefix)
    ensures uri != SummaryUri
  {
    assert uri[6] == DocPrefix[6];
  }

  /** Two `#`s or more: the split has more than two parts. */
  lemma HashCount(a: string, id: string)
    requires '#' in a
    ensures |Split(a + ['#'] + id, '#')| > 2
  {
    assert multiset(a + ['#'] + id) == multiset(a) + multiset{'#'} + multiset(id);
  }

  /** In fallback mode a memory chunk, as search reports it, is read back
      through its URI. */
  lemma ReadBackMemoryChunk(s: Store, c: Chunk, stats: Outcome<seq<string>>, fetch: Outcome<Option<Chunk>>)
    requires s.mode == Fallback && c in Values(s.memory)
    requires '#' !in c.metadata.source && '#' !in c.id
    ensures var x := WithDistance(c, 0.0);
      HandleResourceRead(Locator(x), s, stats, fetch) == Success(ChunkBody(c.id, c.content, c.metadata, Locator(x)))
  {
    var uri := Locator(WithDistance(c, 0.0));
    LocatorRoundTrip(WithDistance(c, 0.0));
    ValueIsFiledUnderItsId(s.memory, c);
    ReadDocument(uri, s, c, stats, fetch);
  }

  /** A document URI naming an id the store finds reads that chunk. */
  lemma ReadDocument(uri: string, s: Store, c: Chunk, stats: Outcome<seq<string>>, fetch: Outcome<Option<Chunk>>)
    requires StartsWith(uri, DocPrefix) && RequestedChunkId(uri).Some?
    requires GetChunk(s, RequestedChunkId(uri).value, fetch) == Some(c)
    ensures HandleResourceRead(uri, s, stats, fetch) == Success(ChunkBody(c.id, c.content, c.metadata, uri))
  {
    DocumentUriIsNotSummary(uri);
  }

  /** In fallback mode, every chunk the search tool reports (see
      `HandleToolCall`) can be read back through the URI it comes with,
      when neither its source nor its id holds a `#`: the resource has the
      same id and content. */
  lemma SearchResultsAreReadable(s: Store, query: string, k: int, hits: Outcome<seq<Hit>>,
                                 i: nat, stats: Outcome<seq<string>>, fetch: Outcome<Option<Chunk>>)
    requires s.mode == Fallback
    requires var found := Search(s, query, k, hits);
      i < |found| && '#' !in found[i].metadata.source && '#' !in found[i].id
    ensures var l := LocateAll(Search(s, query, k, hits))[i];
      var read := HandleResourceRead(l.uri, s, stats, fetch);
      && read.Success? && read.value.ChunkBody?
      && read.value.id == l.id && read.value.content == l.content
  {
    var found := Search(s, query, k, hits);
    assert found[i] in found;
    var c :| c in Values(s.memory) && MatchesQuery(c, Lower(query)) && found[i] == WithDistance(c, 0.0);
    ReadBackMemoryChunk(s, c, stats, fetch);
  }
}

=== FILE: text.dfy ===
/** The handful of JavaScript string operations the core relies on:
    `trim`, `toLowerCase`, `startsWith`, `includes`, counting the matches of
    a global pattern, and `split` on a single character. */
module Text {

  /** ECMAScript white space and line terminators: the characters `trim`
      removes. */
  predicate IsWhitespace(c: char) {
    c as int in WhitespaceCodes
  }

  const WhitespaceCodes: set<int> :=
    {0x09, 0x0A, 0x0B, 0x0C, 0x0D, 0x20, 0xA0, 0x1680,
     0x2000, 0x2001, 0x2002, 0x2003, 0x2004, 0x2005, 0x2006, 0x2007, 0x2008, 0x2009, 0x200A,
     0x2028, 0x2029, 0x202F, 0x205F, 0x3000, 0xFEFF}

  predicate AllWhitespace(s: string) {
    forall i :: 0 <= i < |s| ==> IsWhitespace(s[i])
  }

  /** The length of the leading run of white space. */
  function LeadingWhitespace(s: string): (n: nat)
    ensures n <= |s|
    ensures forall i :: 0 <= i < n ==> IsWhitespace(s[i])
    ensures n < |s| ==> !IsWhitespace(s[n])
  {
    if s != [] && IsWhitespace(s[0]) then 1 + LeadingWhitespace(s[1..]) else 0
  }

  /** The length of the trailing run of white space. */
  function TrailingWhitespace(s: string): (n: nat)
    ensures n <= |s|
    ensures forall i :: |s| - n <= i < |s| ==> IsWhitespace(s[i])
    ensures n < |s| ==> !IsWhitespace(s[|s| - n - 1])
  {
    if s != [] && IsWhitespace(s[|s| - 1]) then 1 + TrailingWhitespace(s[..|s| - 1]) else 0
  }

  /** `String.prototype.trim`: the text between the leading and the trailing
      run of white space. It is empty exactly when the text is all white
      space; otherwise it starts and ends with a character that is not. */
  function Trim(s: string): (r: string)
    ensures r == [] <==> AllWhitespace(s)
    ensures r != [] ==> !IsWhitespace(r[0]) && !IsWhitespace(r[|r| - 1])
    ensures OccursAt(s, r, LeadingWhitespace(s))
    ensures r != [] ==> LeadingWhitespace(s) + |r| + TrailingWhitespace(s) == |s|
  {
    var a := LeadingWhitespace(s);
    if a == |s| then []
    else
      var b := |s| - TrailingWhitespace(s);
      assert a < b;
      s[a..b]
  }

  /** Trimming an already trimmed text changes nothing. */
  lemma TrimIdempotent(s: string)
    ensures Trim(Trim(s)) == Trim(s)
  {
    var r := Trim(s);
    if r != [] {
      assert LeadingWhitespace(r) == 0;
      assert TrailingWhitespace(r) == 0;
    }
  }

  /** `toLowerCase`, restricted to the ASCII letters. */
  function LowerChar(c: char): char {
    if 'A' <= c <= 'Z' then (c as int + 32) as char else c
  }

  function Lower(s: string): (r: string)
    ensures |r| == |s|
    ensures forall i :: 0 <= i < |s| ==> r[i] == LowerChar(s[i])
  {
    seq(|s|, i requires 0 <= i < |s| => LowerChar(s[i]))
  }

  predicate StartsWith(s: string, prefix: string) {
    |prefix| <= |s| && s[..|prefix|] == prefix
  }

  /** `p` occurs in `t` starting at position `i`. */
  predicate OccursAt(t: string, p: string, i: int) {
    0 <= i <= |t| - |p| && t[i..i + |p|] == p
  }

  /** `String.prototype.includes`: `p` occurs as a contiguous piece of `t`. */
  function Contains(t: string, p: string): (b: bool)
    ensures b <==> exists i :: OccursAt(t, p, i)
    decreases |t|
  {
    if StartsWith(t, p) then
      assert OccursAt(t, p, 0);
      true
    else if t == [] then
      false
    else
      var b := Contains(t[1..], p);
      assert !OccursAt(t, p, 0);
      assert forall i :: OccursAt(t, p, i) <==> i >= 1 && OccursAt(t[1..], p, i - 1) by {
        forall i | i >= 1 ensures OccursAt(t, p, i) <==> OccursAt(t[1..], p, i - 1) {
          OccursShift(t, p, i);
        }
      }
      if b then
        var j :| OccursAt(t[1..], p, j);
        assert OccursAt(t, p, j + 1);
        b
      else
        b
  }

  /** An occurrence past the first character is an occurrence in the
      rest of the text. */
  lemma OccursShift(t: string, p: string, i: int)
    requires t != [] && i >= 1
    ensures OccursAt(t, p, i) <==> OccursAt(t[1..], p, i - 1)
  {
    if 1 <= i <= |t| - |p| {
      var x, y := t[i..i + |p|], t[1..][i - 1..i - 1 + |p|];
      forall k | 0 <= k < |p| ensures x[k] == y[k] {
        assert x[k] == t[i + k] && y[k] == t[i + k];
      }
      assert x == y;
    }
  }

  /** The number of matches of the global pattern `p` in `t`, read as a
      literal: matches are found left to right and do not overlap. The empty
      pattern matches at every position, `|t| + 1` times. */
  function Occurrences(t: string, p: string): (r: nat)
    ensures p == [] ==> r == |t| + 1
    ensures p != [] ==> r * |p| <= |t|
    decreases |t|
  {
    if p == [] then |t| + 1
    else if |t| < |p| then 0
    else if t[..|p|] == p then
      var rest := Occurrences(t[|p|..], p);
      OneMoreMatch(rest, |p|);
      1 + rest
    else Occurrences(t[1..], p)
  }

  lemma OneMoreMatch(rest: nat, w: nat)
    ensures (1 + rest) * w == w + rest * w
  {
  }

  /** A non-empty pattern has a match exactly when the text contains it, so
      the substring filter and the match count agree on which texts count. */
  lemma {:induction false} OccurrencesPositiveIffContains(t: string, p: string)
    requires p != []
    ensures Occurrences(t, p) > 0 <==> Contains(t, p)
    decreases |t|
  {
    if |t| < |p| {
    } else if t[..|p|] == p {
      assert StartsWith(t, p);
    } else {
      assert !StartsWith(t, p);
      OccurrencesPositiveIffContains(t[1..], p);
    }
  }

  /** `ps` are positions of occurrences of `p` in `t`, each at least `|p|`
      after every earlier one: occurrences no two of which overlap. */
  predicate NonOverlapping(t: string, p: string, ps: seq<int>) {
    && (forall i :: 0 <= i < |ps| ==> OccursAt(t, p, ps[i]))
    && (forall i, j :: 0 <= i < j < |ps| ==> ps[i] + |p| <= ps[j])
  }

  /** Every position moved by `k`. */
  function Shift(ps: seq<int>, k: int): (qs: seq<int>)
    ensures |qs| == |ps|
    ensures forall i :: 0 <= i < |ps| ==> qs[i] == ps[i] + k
  {
    seq(|ps|, i requires 0 <= i < |ps| => ps[i] + k)
  }

  /** Where the left-to-right search of a non-empty pattern finds its
      matches: non-overlapping occurrences, as many as `Occurrences`
      counts. */
  function MatchPositions(t: string, p: string): (ps: seq<int>)
    requires p != []
    ensures NonOverlapping(t, p, ps)
    ensures |ps| == Occurrences(t, p)
    decreases |t|
  {
    if |t| < |p| then []
    else if t[..|p|] == p then
      var qs := MatchPositions(t[|p|..], p);
      ShiftedOccurrences(t, p, |p|, qs);
      assert OccursAt(t, p, 0);
      [0] + Shift(qs, |p|)
    else
      var qs := MatchPositions(t[1..], p);
      ShiftedOccurrences(t, p, 1, qs);
      Shift(qs, 1)
  }

  /** No non-overlapping occurrences of a non-empty pattern outnumber the
      count, so `Occurrences` is the largest number of them. */
  lemma {:induction false} OccurrencesIsMaximal(t: string, p: string, ps: seq<int>)
    requires p != [] && NonOverlapping(t, p, ps)
    ensures |ps| <= Occurrences(t, p)
    decreases |t|
  {
    if ps != [] {
      assert OccursAt(t, p, ps[0]);
      if t[..|p|] == p {
        UnshiftedOccurrences(t, p, |p|, ps[1..]);
        OccurrencesIsMaximal(t[|p|..], p, Shift(ps[1..], -|p|));
      } else {
        assert ps[0] != 0;
        UnshiftedOccurrences(t, p, 1, ps);
        OccurrencesIsMaximal(t[1..], p, Shift(ps, -1));
      }
    }
  }

  /** An occurrence at or after `k` is an occurrence in the text from `k`. */
  lemma OccursAfter(t: string, p: string, k: nat, i: int)
    requires k <= |t| && i >= k
    ensures OccursAt(t, p, i) <==> OccursAt(t[k..], p, i - k)
  {
    if i <= |t| - |p| {
      assert t[k..][i - k..i - k + |p|] == t[i..i + |p|];
    }
  }

  lemma ShiftedOccurrences(t: string, p: string, k: nat, qs: seq<int>)
    requires k <= |t| && NonOverlapping(t[k..], p, qs)
    ensures NonOverlapping(t, p, Shift(qs, k))
    ensures forall i :: 0 <= i < |qs| ==> Shift(qs, k)[i] >= k
  {
    var ps := Shift(qs, k);
    forall i | 0 <= i < |ps| ensures OccursAt(t, p, ps[i]) {
      assert OccursAt(t[k..], p, qs[i]);
      OccursAfter(t, p, k, qs[i] + k);
    }
  }

  lemma UnshiftedOccurrences(t: string, p: string, k: nat, ps: seq<int>)
    requires k <= |t| && NonOverlapping(t, p, ps)
    requires forall i :: 0 <= i < |ps| ==> ps[i] >= k
    ensures NonOverlapping(t[k..], p, Shift(ps, -(k as int)))
  {
    var qs, u := Shift(ps, -(k as int)), t[k..];
    forall i | 0 <= i < |qs| ensures OccursAt(u, p, qs[i]) {
      OccursAfter(t, p, k, ps[i]);
    }
  }

  /** `String.prototype.split` on a one-character separator. */
  function Split(s: string, sep: char): (parts: seq<string>)
    ensures |parts| == multiset(s)[sep] + 1
    ensures forall i :: 0 <= i < |parts| ==> sep !in parts[i]
  {
    if s == [] then [[]]
    else
      var rest := Split(s[1..], sep);
      PrependPartCount(s, sep, rest);
      PrependPartNoSeparator(s[0], sep, rest);
      PrependPart(s[0], sep, rest)
  }

  /** Joining the parts with the separator gives the text back. */
  lemma {:induction false} SplitJoin(s: string, sep: char)
    ensures Join(Split(s, sep), sep) == s
  {
    if s != [] {
      SplitJoin(s[1..], sep);
      PrependPartJoin(s, sep, Split(s[1..], sep));
    }
  }

  /** One more character in front of the parts of a text: a separator
      opens a new empty part, anything else joins the first part. */
  function PrependPart(c: char, sep: char, rest: seq<string>): seq<string>
    requires rest != []
  {
    if c == sep then [[]] + rest else [[c] + rest[0]] + rest[1..]
  }

  lemma PrependPartCount(s: string, sep: char, rest: seq<string>)
    requires s != [] && |rest| == multiset(s[1..])[sep] + 1
    ensures |PrependPart(s[0], sep, rest)| == multiset(s)[sep] + 1
  {
    assert s == [s[0]] + s[1..];
  }

  lemma PrependPartNoSeparator(c: char, sep: char, rest: seq<string>)
    requires rest != [] && forall i :: 0 <= i < |rest| ==> sep !in rest[i]
    ensures var parts := PrependPart(c, sep, rest);
      forall i :: 0 <= i < |parts| ==> sep !in parts[i]
  {
  }

  lemma PrependPartJoin(s: string, sep: char, rest: seq<string>)
    requires s != [] && rest != [] && Join(rest, sep) == s[1..]
    ensures Join(PrependPart(s[0], sep, rest), sep) == s
  {
    assert s == [s[0]] + s[1..];
    if s[0] == sep {
      assert Join([[]] + rest, sep) == [sep] + Join(rest, sep);
    } else {
      var parts := [[s[0]] + rest[0]] + rest[1..];
      assert parts[1..] == rest[1..];
    }
  }

  /** `Array.prototype.join` with a one-character separator. */
  function Join(parts: seq<string>, sep: char): string {
    if parts == [] then []
    else if |parts| == 1 then parts[0]
    else parts[0] + [sep] + Join(parts[1..], sep)
  }

  /** A text without the separator splits into itself alone. */
  lemma {:induction false} SplitWithoutSeparator(s: string, sep: char)
    requires sep !in s
    ensures Split(s, sep) == [s]
  {
    if s != [] {
      SplitWithoutSeparator(s[1..], sep);
      assert s[0] != sep;
      assert [s[0]] + s[1..] == s;
    }
  }

  /** Splitting `a + sep + b` where `a` holds no separator yields `a`
      followed by the parts of `b`. */
  lemma {:induction false} SplitAfterFirstSeparator(a: string, sep: char, b: string)
    requires sep !in a
    ensures Split(a + [sep] + b, sep) == [a] + Split(b, sep)
  {
    if a == [] {
      SplitLeadingSeparator(sep, b);
    } else {
      SplitAfterFirstSeparator(a[1..], sep, b);
      SplitLeadingOther(a, sep, b);
    }
  }

  /** A leading separator opens an empty first part. */
  lemma SplitLeadingSeparator(sep: char, b: string)
    ensures Split([] + [sep] + b, sep) == [[]] + Split(b, sep)
  {
    var s := [] + [sep] + b;
    assert s[1..] == b;
  }

  /** A leading character other than the separator joins the first part. */
  lemma SplitLeadingOther(a: string, sep: char, b: string)
    requires a != [] && a[0] != sep
    requires Split(a[1..] + [sep] + b, sep) == [a[1..]] + Split(b, sep)
    ensures Split(a + [sep] + b, sep) == [a] + Split(b, sep)
  {
    var s := a + ([sep] + b);
    assert s == a + [sep] + b && a[1..] + ([sep] + b) == a[1..] + [sep] + b;
    ConsShape(a, [sep] + b);
    SplitStep(s, sep);
    PrependOther(a[0], sep, a[1..], Split(b, sep));
  }

  /** One step of `Split`. */
  lemma SplitStep(s: string, sep: char)
    requires s != []
    ensures Split(s, sep) == PrependPart(s[0], sep, Split(s[1..], sep))
  {
  }

  /** The first character and the rest of `a + rest`, for a non-empty `a`. */
  lemma ConsShape(a: string, rest: string)
    requires a != []
    ensures (a + rest)[0] == a[0] && (a + rest)[1..] == a[1..] + rest
    ensures [a[0]] + a[1..] == a
  {
  }

  lemma PrependOther(c: char, sep: char, x: string, tail: seq<string>)
    requires c != sep
    ensures PrependPart(c, sep, [x] + tail) == [[c] + x] + tail
  {
    assert ([x] + tail)[1..] == tail;
  }

  /** Exactly one separator between two separator-free texts: `split`
      returns the two texts. */
  lemma SplitAroundSeparator(a: string, sep: char, b: string)
    requires sep !in a && sep !in b
    ensures Split(a + [sep] + b, sep) == [a, b]
  {
    SplitAfterFirstSeparator(a, sep, b);
    SplitWithoutSeparator(b, sep);
  }
}

=== FILE: tools.dfy ===
/** The MCP tool handler (`handleToolCall`): four tools over the service,
    each answering with a record; an unknown tool name is an error.

    The service is the store together with what its outside world answers
    (`Environment`); a tool call returns the new store and the reply, or
    the error it threw. */
module Tools {
  import opened Basics
  import opened Text
  import opened Chunks
  import opened VectorStore
  import opened RagService

  /** The tool arguments the handler reads. `query` and `id` are the
      required string arguments; `path` and `k` are optional. */
  datatype ToolArgs = ToolArgs(path: Option<string>, query: string, k: Option<int>, id: string)

  /** The configuration and the answers of everything outside the model
      for one call: the configured documents path, the working directory
      and path resolution, the document processor, and what the primary
      collection answers to each kind of call. */
  datatype Environment = Environment(
    documentsPath: string,
    cwd: string,
    resolve: (string, string) -> string,
    process: string -> Result<seq<Chunk>>,
    deleteAnswer: string -> Outcome<()>,
    addAnswer: Outcome<()>,
    searchAnswer: Outcome<seq<Hit>>,
    getAnswer: Outcome<Option<Chunk>>,
    refreshAnswer: Outcome<()>)

  /** A chunk as a tool reports it, with the URI under which it can be read
      as a resource. */
  datatype Located = Located(id: string, content: string, metadata: Metadata, uri: string)

  /** The resource URI of a chunk: `rag://doc/<source>#<id>`. */
  function Locator(c: Chunk): (uri: string)
    ensures StartsWith(uri, "rag://doc/")
  {
    "rag://doc/" + c.metadata.source + "#" + c.id
  }

  function Locate(c: Chunk): (l: Located)
    ensures l.id == c.id && l.content == c.content && l.metadata == c.metadata
    ensures l.uri == Locator(c)
  {
    Located(c.id, c.content, c.metadata, Locator(c))
  }

  /** Every chunk of a list located, in order. */
  function LocateAll(cs: seq<Chunk>): (ls: seq<Located>)
    ensures |ls| == |cs|
    ensures forall i :: 0 <= i < |cs| ==> ls[i] == Locate(cs[i])
  {
    seq(|cs|, i requires 0 <= i < |cs| => Locate(cs[i]))
  }

  /** The reply records of the four tools. */
  datatype ToolReply =
    | Ingested(processed: nat, chunks: nat, message: string)
    | Results(results: seq<Located>)
    | ChunkFound(chunk: Located)
    | ChunkMissing(error: string)
    | Refreshed(message: string)
  {
    /** The `success` field of the reply. */
    predicate Succeeded() {
      !this.ChunkMissing?
    }
  }

  /** `args.k || 5`: a missing or zero `k` means 5. */
  function EffectiveK(k: Option<int>): (r: int)
    ensures k.None? ==> r == 5
    ensures k.Some? && k.value == 0 ==> r == 5
    ensures k.Some? && k.value != 0 ==> r == k.value
  {
    if k.Some? && k.value != 0 then k.value else 5
  }

  /** The fixed text of the `ingest_docs` success message, around the two
      counts. */
  const IngestOpening: string := "Successfully processed "
  const IngestMiddle: string := " documents and created "
  const IngestClosing: string := " chunks"

  /** The success message of `ingest_docs`: it opens with "Successfully
      processed ", then the number of documents in decimal, and closes
      with " chunks"; read back, it gives both counts. */
  function IngestMessage(processed: nat, chunks: nat): (m: string)
    ensures |m| > |IngestOpening| && m[..|IngestOpening|] == IngestOpening
    ensures DecimalValue(m[|IngestOpening|..|IngestOpening| + LeadingDigits(m[|IngestOpening|..])]) == processed
    ensures |m| > |IngestClosing| && m[|m| - |IngestClosing|..] == IngestClosing
    ensures ParseIngestMessage(m) == Some((processed as int, chunks as int))
  {
    IngestMessageShape(processed, chunks);
    IngestMessageReadsBack(processed, chunks);
    IngestOpening + NatToString(processed) + IngestMiddle + NatToString(chunks) + IngestClosing
  }

  lemma IngestMessageShape(processed: nat, chunks: nat)
    ensures var m := IngestOpening + NatToString(processed) + IngestMiddle + NatToString(chunks) + IngestClosing;
      && |m| > |IngestOpening| && m[..|IngestOpening|] == IngestOpening
      && DecimalValue(m[|IngestOpening|..|IngestOpening| + LeadingDigits(m[|IngestOpening|..])]) == processed
      && |m| > |IngestClosing| && m[|m| - |IngestClosing|..] == IngestClosing
  {
    var d, e := NatToString(processed), NatToString(chunks);
    MessageShape(IngestOpening, d, IngestMiddle, e, IngestClosing, processed);
  }

  lemma IngestMessageReadsBack(processed: nat, chunks: nat)
    ensures var m := IngestOpening + NatToString(processed) + IngestMiddle + NatToString(chunks) + IngestClosing;
      ParseIngestMessage(m) == Some((processed as int, chunks as int))
  {
    ReadFramedOf(IngestOpening, NatToString(processed), IngestMiddle, NatToString(chunks), IngestClosing);
  }

  predicate AllDigits(s: string) {
    forall i :: 0 <= i < |s| ==> '0' <= s[i] <= '9'
  }

  /** A number as a template literal prints it: digits, at least one, and
      no leading zero unless the number is 0. */
  predicate Numeral(s: string) {
    s != [] && AllDigits(s) && (s[0] == '0' ==> |s| == 1)
  }

  /** Reads a text made of `pre`, a numeral, `mid`, a second numeral and
      `post`, and gives the two numerals; none for any other text. */
  function ReadFramed(m: string, pre: string, mid: string, post: string): (r: Option<(string, string)>)
    ensures r.Some? ==> && Numeral(r.value.0) && Numeral(r.value.1)
                        && m == pre + r.value.0 + mid + r.value.1 + post
  {
    if StartsWith(m, pre) then
      var x := m[|pre|..];
      var n := LeadingDigits(x);
      var y := x[n..];
      if n > 0 && Numeral(x[..n]) && |y| >= |mid| + |post| && y[..|mid|] == mid && y[|y| - |post|..] == post then
        var e := y[|mid|..|y| - |post|];
        if Numeral(e) then
          ReadFramedParts(m, pre, x, n, y, mid, e, post);
          Some((x[..n], e))
        else None
      else None
    else None
  }

  lemma ReadFramedParts(m: string, pre: string, x: string, n: nat, y: string, mid: string, e: string, post: string)
    requires StartsWith(m, pre) && x == m[|pre|..] && n <= |x| && y == x[n..]
    requires |y| >= |mid| + |post| && y[..|mid|] == mid && y[|y| - |post|..] == post
    requires e == y[|mid|..|y| - |post|]
    ensures m == pre + x[..n] + mid + e + post
  {
    assert y == mid + e + post;
    assert x == x[..n] + y;
    assert m == pre + x;
  }

  /** The counts an `ingest_docs` message reports, read back from its
      text; none for a text of another shape. */
  function ParseIngestMessage(m: string): Option<(int, int)> {
    match ReadFramed(m, IngestOpening, IngestMiddle, IngestClosing)
    case None => None
    case Some((d, e)) => Some((DecimalValue(d), DecimalValue(e)))
  }

  /** Two numerals framed by `pre`, `mid` (which starts with a non-digit)
      and `post` are read back as they were written. */
  lemma ReadFramedOf(pre: string, d: string, mid: string, e: string, post: string)
    requires Numeral(d) && Numeral(e)
    requires mid != [] && !('0' <= mid[0] <= '9')
    ensures ReadFramed(pre + d + mid + e + post, pre, mid, post) == Some((d, e))
  {
    var rest := mid + e + post;
    ConcatParts(pre, d + rest);
    assert pre + d + mid + e + post == pre + (d + rest);
    ConcatParts(d, rest);
    LeadingDigitsOf(d, rest);
    ThreeParts(mid, e, post);
  }

  /** The two sides of a concatenation are its front and its back. */
  lemma ConcatParts(a: string, b: string)
    ensures (a + b)[..|a|] == a && (a + b)[|a|..] == b
  {
  }

  lemma ThreeParts(a: string, b: string, c: string)
    ensures var y := a + b + c;
      && y[..|a|] == a && y[|y| - |c|..] == c && y[|a|..|y| - |c|] == b
  {
    var y := a + b + c;
    assert y[..|a|] == a;
    assert y[|y| - |c|..] == c;
    assert y[|a|..|y| - |c|] == b;
  }

  /** A digit run between fixed text `pre` and text `mid` that starts
      with a non-digit is the leading digit run after `pre`, and the whole
      ends with `post`. */
  lemma MessageShape(pre: string, d: string, mid: string, e: string, post: string, n: int)
    requires forall i :: 0 <= i < |d| ==> '0' <= d[i] <= '9'
    requires mid != [] && !('0' <= mid[0] <= '9')
    requires DecimalValue(d) == n
    ensures var m := pre + d + mid + e + post;
      && |m| > |pre| && |m| > |post| && m[..|pre|] == pre
      && m[|pre|..|pre| + LeadingDigits(m[|pre|..])] == d
      && DecimalValue(m[|pre|..|pre| + LeadingDigits(m[|pre|..])]) == n
      && m[|m| - |post|..] == post
  {
    var rest := mid + e + post;
    RegroupAfterFront(pre, d, mid, e, post);
    DigitsAfter(pre, d, rest);
    DropFront(pre + d + mid + e, post);
  }

  lemma RegroupAfterFront(pre: string, d: string, mid: string, e: string, post: string)
    ensures pre + d + mid + e + post == pre + (d + (mid + e + post))
  {
  }

  lemma DigitsAfter(pre: string, d: string, rest: string)
    requires forall i :: 0 <= i < |d| ==> '0' <= d[i] <= '9'
    requires rest != [] && !('0' <= rest[0] <= '9')
    ensures var m := pre + (d + rest);
      m[..|pre|] == pre && m[|pre|..|pre| + LeadingDigits(m[|pre|..])] == d
  {
    var m := pre + (d + rest);
    var x := m[|pre|..];
    assert x == d + rest;
    LeadingDigitsOf(d, rest);
  }

  lemma DropFront(x: string, post: string)
    ensures (x + post)[|x + post| - |post|..] == post
  {
  }

  /** `handleToolCall(name, args)`. `ingest_docs` ingests and reports the
      counts, or passes the ingestion error on; `search` locates the
      results in their order; `get_chunk` locates the chunk or replies
      "Chunk not found" with `success` false; `refresh_index` refreshes;
      any other name is the error "Unknown tool: <name>". Only ingestion
      and refresh change the store. */
  function HandleToolCall(name: string, args: ToolArgs, s: Store, env: Environment): (r: Result<(Store, ToolReply)>)
    ensures name !in {"ingest_docs", "search", "get_chunk", "refresh_index"} ==> r == Failure("Unknown tool: " + name)
    ensures name in {"search", "get_chunk"} ==> r.Success? && r.value.0 == s
    ensures r.Success? ==> r.value.0.mode == s.mode
    ensures name == "ingest_docs" ==>
      var ingest := Ingest(s, args.path, env.documentsPath, env.cwd, env.resolve, env.process, env.deleteAnswer, env.addAnswer);
      && (ingest.Failure? ==> r == Failure(ingest.error))
      && (ingest.Success? ==> r.Success? && r.value.0 == ingest.value.0
                              && r.value.1.Ingested? && r.value.1.processed == ingest.value.1.processed
                              && r.value.1.chunks == ingest.value.1.chunks
                              && r.value.1.message == IngestMessage(ingest.value.1.processed, ingest.value.1.chunks))
    ensures name == "search" ==>
      var found := Search(s, args.query, EffectiveK(args.k), env.searchAnswer);
      r.value.1 == Results(LocateAll(found))
    ensures name == "get_chunk" ==>
      match GetChunk(s, args.id, env.getAnswer)
      case None => r.value.1 == ChunkMissing("Chunk not found") && !r.value.1.Succeeded()
      case Some(c) => r.value.1 == ChunkFound(Locate(c)) && r.value.1.Succeeded()
    ensures name == "refresh_index" ==> r == Success((RefreshIndex(s, env.refreshAnswer), Refreshed("Index refreshed successfully")))
  {
    match name
    case "ingest_docs" =>
      (match Ingest(s, args.path, env.documentsPath, env.cwd, env.resolve, env.process, env.deleteAnswer, env.addAnswer)
       case Failure(e) => Failure(e)
       case Success((s1, report)) =>
         Success((s1, Ingested(report.processed, report.chunks, IngestMessage(report.processed, report.chunks)))))
    case "search" =>
      var found := Search(s, args.query, EffectiveK(args.k), env.searchAnswer);
      Success((s, Results(LocateAll(found))))
    case "get_chunk" =>
      (match GetChunk(s, args.id, env.getAnswer)
       case None => Success((s, ChunkMissing("Chunk not found")))
       case Some(c) => Success((s, ChunkFound(Locate(c)))))
    case "refresh_index" =>
      Success((RefreshIndex(s, env.refreshAnswer), Refreshed("Index refreshed successfully")))
    case _ => Failure("Unknown tool: " + name)
  }

  /** The ingestion message names both counts, so different counts give
      different messages. */
  lemma IngestMessageInjective(p1: nat, c1: nat, p2: nat, c2: nat)
    requires IngestMessage(p1, c1) == IngestMessage(p2, c2)
    ensures p1 == p2 && c1 == c2
  {
    FramedDigits(IngestOpening, IngestMiddle, IngestClosing,
                 NatToString(p1), NatToString(c1), NatToString(p2), NatToString(c2));
    NatToStringInjective(p1, p2);
    NatToStringInjective(c1, c2);
  }

  /** Two digit strings framed by fixed text, the middle starting with a
      non-digit, are recovered from the whole. */
  lemma FramedDigits(pre: string, mid: string, post: string, d1: string, e1: string, d2: string, e2: string)
    requires forall i :: 0 <= i < |d1| ==> '0' <= d1[i] <= '9'
    requires forall i :: 0 <= i < |d2| ==> '0' <= d2[i] <= '9'
    requires mid != [] && !('0' <= mid[0] <= '9')
    requires pre + d1 + mid + e1 + post == pre + d2 + mid + e2 + post
    ensures d1 == d2 && e1 == e2
  {
    var t1, t2 := d1 + (mid + (e1 + post)), d2 + (mid + (e2 + post));
    assert pre + d1 + mid + e1 + post == pre + t1;
    assert pre + d2 + mid + e2 + post == pre + t2;
    DropPrefix(pre, t1, t2);
    LeadingDigitsOf(d1, mid + (e1 + post));
    LeadingDigitsOf(d2, mid + (e2 + post));
    assert d1 == t1[..|d1|] && d2 == t2[..|d2|];
    assert t1 == (d1 + mid) + (e1 + post);
    assert t2 == (d1 + mid) + (e2 + post);
    DropPrefix(d1 + mid, e1 + post, e2 + post);
    DropSuffix(e1, e2, post);
  }

  lemma DropPrefix(pre: string, x: string, y: string)
    requires pre + x == pre + y
    ensures x == y
  {
    assert x == (pre + x)[|pre|..];
    assert y == (pre + y)[|pre|..];
  }

  lemma DropSuffix(x: string, y: string, post: string)
    requires x + post == y + post
    ensures x == y
  {
    assert x == (x + post)[..|x|];
    assert y == (y + post)[..|y|];
  }

  /** The length of the leading run of decimal digits. */
  function LeadingDigits(s: string): (n: nat)
    ensures n <= |s|
    ensures forall i :: 0 <= i < n ==> '0' <= s[i] <= '9'
  {
    if s != [] && '0' <= s[0] <= '9' then 1 + LeadingDigits(s[1..]) else 0
  }

  /** Digits followed by a non-digit: the run is exactly the digits. */
  lemma {:induction false} LeadingDigitsOf(d: string, rest: string)
    requires forall i :: 0 <= i < |d| ==> '0' <= d[i] <= '9'
    requires rest != [] && !('0' <= rest[0] <= '9')
    ensures LeadingDigits(d + rest) == |d|
  {
    if d == [] {
      assert d + rest == rest;
    } else {
      assert (d + rest)[1..] == d[1..] + rest;
      LeadingDigitsOf(d[1..], rest);
    }
  }
}

=== FILE: vector_store.dfy ===
/** The dual-mode chunk store (`VectorStore`). After `initialize` the store
    either holds a handle on the primary vector collection or, when the
    database could not be reached, none; every operation goes to the
    primary collection when there is one and falls back to the in-memory
    map when there is none or when the primary call throws.

    The primary collection itself is outside the model: each primary call
    is a parameter saying what the call answered (`Ok(value)`) or that it
    threw (`Fail`). Only the memory is part of the state. */
module VectorStore {
  import opened Basics
  import opened Text
  import opened Chunks
  import opened Memory
  import opened Ranking

  /** Whether the store holds a primary collection handle. */
  datatype Mode = Primary | Fallback

  datatype Store = Store(mode: Mode, memory: ChunkStore)

  /** A freshly constructed store: no collection handle yet, no chunks. */
  const NewStore: Store := Store(Fallback, Empty)

  /** `initialize`: a heartbeat, then `getOrCreateCollection`; the store
      is primary exactly when both answer. The memory is untouched. */
  function Initialize(s: Store, heartbeat: Outcome<()>, openCollection: Outcome<()>): (r: Store)
    ensures r.mode == Primary <==> heartbeat.Ok? && openCollection.Ok?
    ensures r.memory == s.memory
  {
    if heartbeat.Ok? && openCollection.Ok? then s.(mode := Primary) else s.(mode := Fallback)
  }

  /** The primary answer counts only in primary mode. */
  predicate PrimaryAnswered<T>(s: Store, answer: Outcome<T>) {
    s.mode == Primary && answer.Ok?
  }

  /** `addDocuments`: an empty batch changes nothing. Otherwise the batch
      goes to the primary collection; in fallback mode, or when the
      embedding or the primary `add` throws (`add` is then `Fail`), it
      goes to memory instead, one `Map.set` per chunk: a present id keeps
      its place in the key order and a new id is appended. */
  function AddDocuments(s: Store, batch: seq<Chunk>, add: Outcome<()>): (r: Store)
    ensures r.mode == s.mode
    ensures batch == [] || PrimaryAnswered(s, add) ==> r == s
    ensures batch != [] && !PrimaryAnswered(s, add) ==>
      && r.memory == PutAll(s.memory, batch)
      && forall id :: Get(r.memory, id) == LastWithId(batch, id).Or(Get(s.memory, id))
  {
    if batch == [] then s
    else if PrimaryAnswered(s, add) then s
    else s.(memory := PutAll(s.memory, batch))
  }

  /** One result row of a primary similarity query: the stored id,
      document and metadata, and the distance if the database reported
      one. */
  datatype Hit = Hit(id: string, document: string, metadata: Metadata, distance: Option<real>)

  /** The chunk a primary hit becomes: a missing (or zero) distance reads
      as 0. */
  function HitChunk(h: Hit): (c: Chunk)
    ensures c.id == h.id && c.content == h.document
    ensures c.metadata.distance == Some(h.distance.GetOr(0.0))
    ensures c.metadata == h.metadata.(distance := Some(h.distance.GetOr(0.0)))
  {
    WithDistance(Chunk(h.id, h.document, h.metadata), h.distance.GetOr(0.0))
  }

  /** `search(query, k)`: in primary mode the hits of the similarity query,
      in their order; in fallback mode, or when embedding the query or the
      primary query throws, the text search over the memory. */
  function Search(s: Store, query: string, k: int, primary: Outcome<seq<Hit>>): (r: seq<Chunk>)
    ensures PrimaryAnswered(s, primary) ==>
      && |r| == |primary.value|
      && forall i :: 0 <= i < |r| ==> r[i] == HitChunk(primary.value[i])
    ensures !PrimaryAnswered(s, primary) ==> r == TextSearch(s.memory, query, k)
    ensures !PrimaryAnswered(s, primary) ==>
      && (k >= 0 ==> |r| <= k)
      && SortedByKey(r, ScoreKey(Lower(query)))
      && forall x :: x in r ==> exists c :: c in Values(s.memory) && MatchesQuery(c, Lower(query))
                                            && x == WithDistance(c, 0.0)
  {
    if PrimaryAnswered(s, primary) then
      seq(|primary.value|, i requires 0 <= i < |primary.value| => HitChunk(primary.value[i]))
    else
      TextSearch(s.memory, query, k)
  }

  /** `getChunk(id)`: in primary mode whatever the primary `get` found,
      even nothing, without looking at memory; otherwise the memory entry. */
  function GetChunk(s: Store, id: string, primary: Outcome<Option<Chunk>>): (r: Option<Chunk>)
    ensures PrimaryAnswered(s, primary) ==> r == primary.value
    ensures !PrimaryAnswered(s, primary) ==> r == Get(s.memory, id)
  {
    if PrimaryAnswered(s, primary) then primary.value else Get(s.memory, id)
  }

  /** Chunk count and distinct sources. */
  datatype Stats = Stats(count: nat, sources: seq<string>)

  /** The sources that are not empty (an empty string is falsy and is
      skipped), in order. */
  function NonEmpty(ss: seq<string>): (r: seq<string>)
    ensures forall x :: x in r <==> x in ss && x != []
  {
    if ss == [] then []
    else
      assert forall x :: x in ss <==> x == ss[0] || x in ss[1..];
      (if ss[0] != [] then [ss[0]] else []) + NonEmpty(ss[1..])
  }

  /** The stats of a list of per-record sources: one count per record, and
      the distinct non-empty sources in order of first occurrence. */
  function StatsOf(sources: seq<string>): (r: Stats)
    ensures r.count == |sources|
    ensures NoDuplicates(r.sources)
    ensures forall x :: x in r.sources <==> x in sources && x != []
  {
    Stats(|sources|, Distinct(NonEmpty(sources)))
  }

  /** `getMemoryStats`: the number of memory entries and the distinct
      non-empty sources of the entries, in key order. */
  function MemoryStats(m: ChunkStore): (r: Stats)
    ensures r.count == |m.entries|
    ensures NoDuplicates(r.sources)
    ensures forall x :: x in r.sources <==> x != [] && exists id :: Get(m, id).Some? && Get(m, id).value.metadata.source == x
  {
    var r := StatsOf(SourceList(Values(m)));
    SourcesOfValues(m);
    Stats(Size(m), r.sources)
  }

  /** A source occurs in the key-ordered chunk list exactly when some
      entry has it. */
  lemma SourcesOfValues(m: ChunkStore)
    ensures forall x :: x in SourceList(Values(m)) <==> exists id :: Get(m, id).Some? && Get(m, id).value.metadata.source == x
  {
    var vs := Values(m);
    forall x ensures x in SourceList(vs) ==> exists id :: Get(m, id).Some? && Get(m, id).value.metadata.source == x {
      if x in SourceList(vs) {
        var i :| 0 <= i < |vs| && SourceList(vs)[i] == x;
        assert Get(m, m.keys[i]) == Some(vs[i]);
      }
    }
    forall id | Get(m, id).Some? ensures Get(m, id).value.metadata.source in SourceList(vs) {
      var c := Get(m, id).value;
      assert c in vs;
      var i :| 0 <= i < |vs| && vs[i] == c;
      assert SourceList(vs)[i] == c.metadata.source;
    }
  }

  /** `getCollectionStats`: in primary mode the stats of the records the
      primary `get` returned (their sources, one per record, empty when a
      record has none); otherwise the memory stats. */
  function CollectionStats(s: Store, primary: Outcome<seq<string>>): (r: Stats)
    ensures PrimaryAnswered(s, primary) ==> r == StatsOf(primary.value)
    ensures !PrimaryAnswered(s, primary) ==> r == MemoryStats(s.memory)
  {
    if PrimaryAnswered(s, primary) then StatsOf(primary.value) else MemoryStats(s.memory)
  }

  /** `deleteBySource(source)`: in primary mode the primary delete; in
      fallback mode, or when the primary lookup or delete throws, every
      memory entry of that source goes and every other stays. */
  function DeleteBySource(s: Store, source: string, primary: Outcome<()>): (r: Store)
    ensures r.mode == s.mode
    ensures PrimaryAnswered(s, primary) ==> r == s
    ensures !PrimaryAnswered(s, primary) ==> r.memory == RemoveSource(s.memory, source)
  {
    if PrimaryAnswered(s, primary) then s else s.(memory := RemoveSource(s.memory, source))
  }

  /** `refreshIndex`: in primary mode the primary delete of everything; in
      fallback mode, or when that throws, the memory is cleared. */
  function RefreshIndex(s: Store, primary: Outcome<()>): (r: Store)
    ensures r.mode == s.mode
    ensures PrimaryAnswered(s, primary) ==> r == s
    ensures !PrimaryAnswered(s, primary) ==> forall id :: Get(r.memory, id) == None
  {
    if PrimaryAnswered(s, primary) then s else s.(memory := Clear(s.memory))
  }

  /** In fallback mode a chunk just added is what `getChunk` returns for
      its id, unless a later chunk of the batch has the same id. */
  lemma AddThenGet(s: Store, batch: seq<Chunk>, i: nat, fetch: Outcome<Option<Chunk>>)
    requires s.mode == Fallback && i < |batch|
    requires forall j :: i < j < |batch| ==> batch[j].id != batch[i].id
    ensures GetChunk(AddDocuments(s, batch, Fail), batch[i].id, fetch) == Some(batch[i])
  {
    var id := batch[i].id;
    match LastWithId(batch, id)
    case Some(c) =>
      var j :| 0 <= j < |batch| && batch[j] == c && batch[j].id == id
               && forall l :: j < l < |batch| ==> batch[l].id != id;
      assert j == i;
  }

  /** After a memory delete of a source, the stats no longer list it. */
  lemma DeleteThenStats(s: Store, source: string, delete: Outcome<()>, stats: Outcome<seq<string>>)
    requires !PrimaryAnswered(s, delete) && !PrimaryAnswered(s, stats)
    ensures source !in CollectionStats(DeleteBySource(s, source, delete), stats).sources
  {
    var r := DeleteBySource(s, source, delete);
    assert forall id :: !(Get(r.memory, id).Some? && Get(r.memory, id).value.metadata.source == source);
  }

  /** After a memory refresh the stats count nothing. */
  lemma RefreshThenStats(s: Store, refresh: Outcome<()>, stats: Outcome<seq<string>>)
    requires !PrimaryAnswered(s, refresh) && !PrimaryAnswered(s, stats)
    ensures CollectionStats(RefreshIndex(s, refresh), stats) == Stats(0, [])
  {
    var r := RefreshIndex(s, refresh);
    assert r.memory == Empty;
  }

  /** A primary store ignores its memory when the primary answers: chunks
      that went to memory after a failed primary `add` are not found by a
      later successful primary `get`. */
  lemma PrimaryHidesMemory(s: Store, batch: seq<Chunk>, id: string)
    requires s.mode == Primary && batch != [] && id in Ids(batch)
    ensures Get(AddDocuments(s, batch, Fail).memory, id).Some?
    ensures GetChunk(AddDocuments(s, batch, Fail), id, Ok(None)) == None
  {
    var i :| 0 <= i < |batch| && Ids(batch)[i] == id;
    assert batch[i].id == id;
  }
}
